=== FILE: README.md ===
# Ticket marketplace — a Dafny model of its request handlers, in-memory lists and form logic

This project models the decision logic of a prototype ticket-resale marketplace (a
Next.js application) and proves properties of it. Three layers are modelled:

- **Request handlers** for users, concerts, tickets and login. Each handler is a pure
  function from a request and a store (a `seq` of rows in table order) to a status
  code, a body and the store after the request. Every handler runs a fixed-order
  cascade of checks: required fields, e-mail pattern, existence, ownership, duplicate
  e-mail.
- **The two in-memory structures the code owns**:
  - the popular-tickets list: random traffic bump, descending sort, ranks 1..N;
  - the legacy orders array: append, merge-update, splice-delete.
- **Client-side logic of the pages**:
  - signup password rules and submit order;
  - the search page's price parsing, filter and sort;
  - the ticket list's grade toggles, price range, request URL and reset;
  - cart removal and total;
  - the order quantity stepper;
  - the profile password-change checks;
  - the sell page's concert search;
  - the login page's pre-checks and remembered e-mail.

JavaScript semantics are written out where they matter:
- `!x` on a JSON field treats an absent field, `""` and `0` as missing (`Common.Truthy`, `Common.TruthyNumber`).
- `a || b` is `Common.OrDefault`.
- `Array.prototype.filter` and `find` are `Common.Filter` and `Common.FindFirst`.
- The stable `Array.prototype.sort` is `Sorting.Sort`.
- `toLowerCase` is ASCII-only.

The quirks of the code are kept as written:
- a price or quantity of 0 counts as missing;
- an omitted `sellerId` skips the ownership check;
- order ids can collide after a delete;
- e-mail comparison is case-sensitive.

The concert table stores its price object as text. `PriceCodec` gives the
`JSON.stringify`/`JSON.parse` pair a concrete shape. The writer emits the compact
form. The reader accepts JSON white space around every token, as the seeded rows
use it. The project proves the round trip, so the create and update handlers'
"the price you get back is the price you sent" is a theorem and not an assumption.

The concerts handler passes no insensitive mode to its `contains` filters, so
`ConcertsApi.Selected` compares with case. The tickets handler asks for an
insensitive match, and `TicketsApi.Selected` ignores case.

Modules, one per source file, plus shared helpers:
- `Common`: options, truthiness, filter/find, substring, ASCII lower case.
- `Decimal`: digit strings.
- `Sorting`: stable insertion sort, lexicographic order.
- `EmailPattern`: the regular expression `^[^\s@]+@[^\s@]+\.[^\s@]+$`.
- `PriceCodec`.
- The handlers: `PopularTickets`, `OrdersApi`, `TicketsApi`, `UsersApi`, `ConcertsApi`, `LoginApi`.
- The pages: `SignupPage`, `SearchPage`, `TicketsPage`, `CartPage`, `OrderPage`, `ProfilePage`, `SellPage`, `LoginPage`.

## Model

| member | source | states |
|---|---|---|
| PopularTickets.ByTrafficDesc | app/api/popular-tickets/route.ts:19 | the comparator `b.traffic - a.traffic` is a total preorder, so the stable sort by it is well defined |
| PopularTickets.Get | app/api/popular-tickets/route.ts:10-25 | same length; rank of entry i is i+1; traffic non-increasing; each entry is some old entry with only traffic and rank changed, its traffic raised by 0..99 |
| PopularTickets.GetPermutesIds | app/api/popular-tickets/route.ts:12-22 | the multiset of ids after a GET equals the multiset before: the list is permuted, nothing added or lost |
| Sorting.Sort | app/api/popular-tickets/route.ts:18-19 | the result is a permutation of the input, ordered by the comparator |
| Sorting.SortAllEqual | app/search/page.tsx:127 | a comparator that calls every pair equal leaves the list unchanged (stability) |
| Sorting.SortStable | app/search/page.tsx:121-128 | stability in general: the elements a comparator ranks level with any given one come out in their input order |
| Sorting.SortKeepsClassOrder | app/search/page.tsx:121-128 | the same for any set of elements the comparator ranks mutually level |
| Sorting.InsertStable | app/search/page.tsx:121-128 | inserting an element puts it in front of the level elements already in place and keeps their order |
| OrdersApi.FindIndex | app/api/orders/route.ts:22 | -1 exactly when no order has the id; otherwise the first index holding it |
| OrdersApi.Get | app/api/orders/route.ts:9-11 | 200 with the array as it is; the array is unchanged |
| OrdersApi.Post | app/api/orders/route.ts:13-18 | 201; exactly one order appended, its id the old length + 1; earlier entries untouched |
| OrdersApi.Put | app/api/orders/route.ts:20-28 | no match gives 404 and an unchanged array; otherwise only the first match changes, to the old order overlaid by the body, and its id is kept |
| OrdersApi.Delete | app/api/orders/route.ts:30-38 | no match gives 404 and an unchanged array; otherwise the first match is spliced out, the rest keeps its order, length drops by one |
| OrdersApi.PostAfterDeleteDuplicatesId | app/api/orders/route.ts:13-38 | with ids 1..n, deleting any order but the last and then posting gives two orders with id n |
| TicketsApi.FindById | app/api/tickets/route.ts:18-21 | found exactly when a row has the id; the row found has it |
| TicketsApi.NewestFirst | app/api/tickets/route.ts:63 | ordering by createdAt descending is a total preorder |
| TicketsApi.Get | app/api/tickets/route.ts:16-64 | with an id: the ticket or 404. Without: exactly the stored tickets that pass every filter (concert, seller, status, grade equal; text in title or description, ignoring case), newest first |
| TicketsApi.NoMatchEmptyList | app/api/tickets/route.ts:59-66 | a list query nothing satisfies answers 200 with an empty list |
| TicketsApi.OrNull | app/api/tickets/route.ts:111-115 | `x \|\| null`: kept when non-empty, otherwise null |
| TicketsApi.Post | app/api/tickets/route.ts:82-120 | 400 when concertId, sellerId, title, price, quantity or grade is falsy (0 included); 404 for an unknown concert; otherwise 201, one row appended carrying the sent fields; originalPrice falls back to price only when absent; status is the sent one unless empty, else "available"; isConsecutiveSeats is true exactly when true was sent; section, row, seat number and description are null when absent or empty, else the sent text; createdAt is the request time |
| TicketsApi.Put | app/api/tickets/route.ts:136-177 | 400 without id, 404 unknown, 403 when a truthy sellerId differs from the owner (store unchanged); otherwise only that row changes, by the supplied fields, never its id; a nullable text column sent as `null` is written as null |
| TicketsApi.PutNullClearsColumn | app/api/tickets/route.ts:165-174 | an accepted PUT empties each of section, row, seatNumber and description that is sent as `null`, and keeps each that is left out |
| TicketsApi.Delete | app/api/tickets/route.ts:193-227 | 400 without id, 404 unknown, 403 for another seller (store unchanged); otherwise exactly the rows with that id are gone, the rest in order |
| TicketsApi.ForeignSellerChangesNothing | app/api/tickets/route.ts:158-163 | PUT and DELETE from a seller who does not own the ticket both answer 403 and leave the store as it was |
| TicketsApi.DeleteRemovesOne | app/api/tickets/route.ts:222-227 | with unique ids a successful DELETE removes exactly one row and ids stay unique |
| UsersApi.Public | app/api/users/route.ts:103 | the sent-out user carries id, e-mail and name of the row and no password |
| UsersApi.FindByEmail | app/api/users/route.ts:14-16 | found exactly when a row has that exact e-mail (case-sensitive) |
| UsersApi.FindById | app/api/users/route.ts:130-132 | found exactly when a row has the id |
| UsersApi.Get | app/api/users/route.ts:11-39 | with an e-mail: exists exactly when a row has that e-mail, answered without password; without: every user, without passwords, in order |
| UsersApi.Post | app/api/users/route.ts:57-104 | missing field 400 first, then pattern 400, then duplicate 409 (store unchanged); 201 exactly when all pass, with one row appended and the answer without password |
| UsersApi.Put | app/api/users/route.ts:120-165 | 400 without id, 404 unknown, 409 when a new truthy e-mail is held; otherwise only that row changes (e-mail, name), every id and password stays |
| UsersApi.Delete | app/api/users/route.ts:181-207 | 400 without id, 404 unknown; otherwise exactly that user's rows are removed |
| UsersApi.PostKeepsEmailsUnique | app/api/users/route.ts:80-99 | registration keeps e-mails unique |
| UsersApi.PutKeepsEmailsUnique | app/api/users/route.ts:142-162 | an update keeps e-mails unique unless it sets the e-mail to "" |
| UsersApi.EmptyEmailCanBeShared | app/api/users/route.ts:142-162 | the handler's own duplicate check skips a falsy e-mail: an update to "" passes it even when another user holds "" |
| EmailPattern.Test | app/api/users/route.ts:70-71 | a left-to-right scan answers true exactly when the text is `A@B.C` with non-empty runs free of white space and '@' |
| LoginApi.Token | app/api/auth/login/route.ts:24 | the token starts with "fake-jwt-token-", and what follows reads back as the id |
| LoginApi.TokenIdentifiesUser | app/api/auth/login/route.ts:24 | equal tokens mean equal ids |
| LoginApi.Authenticate | app/api/auth/login/route.ts:20 | finds a user exactly when one has that exact e-mail and password; the one found is the first such user in the list |
| LoginApi.Login | app/api/auth/login/route.ts:12-47 | 400 with success=false when e-mail or password is missing; success exactly when a user matches both; on success the answered user is the first user with that e-mail and password, sent without password, and the cookie holds that user's token; otherwise 401 with the generic message |
| LoginApi.OwnCredentialsLogIn | app/api/auth/login/route.ts:20-41 | with unique e-mails, a user who gives their own e-mail and password is logged in as themselves with their own token |
| LoginApi.EmailIsCaseSensitive | app/api/auth/login/route.ts:20 | "A@b.c" does not log in the user registered as "a@b.c" |
| PriceCodec.DecodeEncode | app/api/concerts/route.ts:100-110 | parsing the stored text of a price object gives back that object |
| PriceCodec.SeedPriceDecodes | prisma/seed.ts:43 | the seeded text `{"VIP": 150000, "R": 120000, "S": 90000}`, with a space after each colon and comma, is read as its three entries |
| PriceCodec.SeedPriceTextIs | prisma/seed.ts:43 | the text the codec lemmas work on is, character for character, the seeded price text (written as that literal cut after its opening brace and after each comma) |
| ConcertsApi.FindById | app/api/concerts/route.ts:16-18 | found exactly when a row has the id |
| ConcertsApi.ByDate | app/api/concerts/route.ts:56 | ordering by date text is a total preorder |
| ConcertsApi.ShowAll | app/api/concerts/route.ts:59-63 | fails exactly when some row's price text cannot be parsed; otherwise each row with its parsed price, in order |
| ConcertsApi.GetOne | app/api/concerts/route.ts:14-31 | 404 exactly when no row has the id; 200 exactly when a row has it and its price text parses, answered with that row and the parsed price; 500 otherwise |
| ConcertsApi.Listed | app/api/concerts/route.ts:54-57 | the selected rows come out ordered by date |
| ConcertsApi.ListedMembers | app/api/concerts/route.ts:35-57 | a row is listed exactly when it is stored and passes every filter, and as often as the filtered store holds it (the same multiset) |
| ConcertsApi.ListedShows | app/api/concerts/route.ts:59-63 | the list's prices parse exactly when every selected row's price text parses |
| ConcertsApi.Get | app/api/concerts/route.ts:14-72 | with an id: as GetOne. Without: 200 exactly when every selected row's price parses, else 500; on 200 exactly the rows with equal category and status and the text (case-sensitive) in title, artist or venue, by date ascending, one answer per listed row carrying that row and the price its text parses to |
| ConcertsApi.Post | app/api/concerts/route.ts:81-110 | 400 when title, artist, date or venue is missing; otherwise 201, one row appended with "" defaults, status "upcoming", and the answered price equal to the submitted one (or empty) |
| ConcertsApi.Put | app/api/concerts/route.ts:126-163 | 400 without id, 404 unknown; otherwise only that row changes; 200 exactly when the updated row's price text parses, which it always does when a price is sent; without a price the stored price text stays, with one the answered price is the one sent |
| ConcertsApi.PostThenGetOne | app/api/concerts/route.ts:89-110 | a concert created under a fresh id is then found by GET with that id, with the price that was sent |
| ConcertsApi.PutThenGetOne | app/api/concerts/route.ts:151-163 | a PUT that sends a price answers 200, and GET by id then reads that price back |
| ConcertsApi.GetOneReadsPrice | app/api/concerts/route.ts:16-31 | when every row with the id stores the encoded price, GET by id answers 200 with that price |
| ConcertsApi.ShowUpdated | app/api/concerts/route.ts:159-163 | 200 exactly when the updated price text parses, answered with it |
| ConcertsApi.Delete | app/api/concerts/route.ts:179-205 | 400 without id, 404 unknown; otherwise exactly that concert's rows are removed |
| ConcertsApi.DeleteRemovesOne | app/api/concerts/route.ts:200-205 | with unique ids a successful DELETE removes one row and ids stay unique |
| ConcertsApi.PostKeepsIdsUnique | app/api/concerts/route.ts:89-104 | a create under a fresh id keeps ids unique |
| SignupPage.AnyChar | app/signup/page.tsx:41-43 | a character class test is true exactly when some character is in the class |
| Common.Utf16Length | app/signup/page.tsx:40 | JavaScript's `length` counts UTF-16 code units: between the number of characters and twice it, and equal to it when no character lies outside the Basic Multilingual Plane |
| SignupPage.Rules | app/signup/page.tsx:38-46 | length rule iff 8+ UTF-16 code units (JavaScript's `length`); letter iff an ASCII letter; number iff a digit; special iff one of `!@#$%^&*(),.?":{}\|<>`; match iff equal to a non-empty confirmation |
| SignupPage.PasswordValidIff | app/signup/page.tsx:80 | the password is valid exactly when all five rules hold |
| SignupPage.ExamplePasswordValid | app/signup/page.tsx:40-44 | "abcd123!" passes, "abcd1234" (no special character) fails |
| SignupPage.UsernameOf | app/signup/page.tsx:130 | the user name is the prefix before the first '@' (all of it when there is none) |
| SignupPage.UsernameOfMatching | app/signup/page.tsx:130 | for a pattern-valid e-mail that prefix is non-empty and ends at its only '@' |
| SignupPage.Submit | app/signup/page.tsx:85-131 | refuses in order: check running, duplicate message, pattern, password rules; sends exactly when all pass, with e-mail, password and derived name |
| SignupPage.FormValidIff | app/signup/page.tsx:83 | the submit button is enabled exactly for a password passing all five rules, no duplicate-e-mail message, a non-empty e-mail and a ticked agreement; an empty e-mail or password keeps it disabled |
| SignupPage.FormValidSubmits | app/signup/page.tsx:83 | an enabled form with no check running and a valid e-mail is sent |
| SignupPage.SentRequestPassesHandlerChecks | app/signup/page.tsx:127-131 | what the page sends never gets the handler's 400s: 201, or 409 exactly when the e-mail is registered |
| SignupPage.ErrorFor | app/signup/page.tsx:139-154 | no error exactly for 2xx; 409 maps to the duplicate message; otherwise the handler's error or the default |
| SearchPage.PriceDigits | app/search/page.tsx:105 | only the digits of the text remain, in order |
| SearchPage.GetPriceNumber | app/search/page.tsx:104-106 | NaN exactly when the text has no digit |
| SearchPage.PriceOfPaddedNumber | app/search/page.tsx:104-106 | a number surrounded by non-digit text is read back |
| SearchPage.NonDigitIgnored | app/search/page.tsx:105 | inserting a non-digit (such as a thousands separator) anywhere does not change the number |
| SearchPage.FilterResults | app/search/page.tsx:114-118 | an order-preserving subsequence: exactly the items whose lower-cased title or artist contains the lower-cased query, each as often as in the input |
| SearchPage.NoQueryKeepsAll | app/search/page.tsx:116-117 | an absent or empty query keeps every item |
| SearchPage.OrderFor | app/search/page.tsx:121-128 | each of the three comparators is a total preorder |
| SearchPage.SortResults | app/search/page.tsx:121-128 | a permutation; "asc" non-decreasing by price, "desc" non-increasing, no order keeps the list |
| SearchPage.Results | app/search/page.tsx:114-128 | the shown items are exactly the matching ones, each as often as in the input; ascending or descending by price when so chosen; unsorted they keep source order |
| TicketsPage.GradeName | app/api/tickets/data.ts:4 | grade names are non-empty and contain no comma |
| TicketsPage.GradeNameInjective | app/api/tickets/data.ts:4 | different grades have different names |
| TicketsPage.Reset | app/tickets/page.tsx:221-226 | no grades, empty bounds, status "available" |
| TicketsPage.HandleGradeChange | app/tickets/page.tsx:70-78 | checking appends (no deduplication); unchecking removes every copy and keeps the other grades in order and number |
| TicketsPage.UncheckUndoesCheck | app/tickets/page.tsx:72-75 | unchecking a grade just checked restores the filters |
| TicketsPage.NumberOf | app/tickets/page.tsx:101 | a number exactly for integer text |
| TicketsPage.FilterTickets | app/tickets/page.tsx:99-110 | an order-preserving subsequence: exactly the tickets within the bounds, each as often as fetched |
| TicketsPage.PriceRangeInclusive | app/tickets/page.tsx:99-110 | with integer bounds a ticket passes exactly when min <= price <= max |
| TicketsPage.EmptyBoundsKeepAll | app/tickets/page.tsx:101-105 | empty bounds keep every ticket |
| TicketsPage.UnreadableBoundIgnored | app/tickets/page.tsx:101-105 | a bound that is not a number excludes nothing |
| TicketsPage.Join | app/tickets/page.tsx:51 | one grade joins to its name; two or more contain a comma |
| TicketsPage.GradeParam | app/tickets/page.tsx:50-52 | the grade parameter is present exactly when a grade is checked |
| TicketsPage.RequestUrl | app/tickets/page.tsx:44-52 | starts with "/api/tickets?status=available"; `&query=` with the encoded term follows it exactly when the term is non-empty; `&grade=` with the joined grades ends it exactly when any is checked; nothing else is in it (its length is the sum of those parts) |
| TicketsPage.RequestUrlKeepsTerm | app/tickets/page.tsx:44-48 | with the same grades and an encoding that keeps terms apart, different search terms give different URLs |
| TicketsPage.SentQuery | app/tickets/page.tsx:44-52 | the handler sees status "available", the joined grades, and no id, concert or seller |
| TicketsPage.GradeFilterAsSent | app/tickets/page.tsx:50-52 | against the handler's equality filter, one checked grade selects that grade, and two or more select no ticket |
| TicketsPage.ResetShowsAll | app/tickets/page.tsx:220-226 | after a reset every ticket is shown and the URL carries no grade |
| CartPage.RemoveItem | app/cart/page.tsx:19-21 | exactly the items with another id remain, each as often as before, in order |
| CartPage.Total | app/cart/page.tsx:23 | the sum of prices; non-negative for non-negative prices |
| CartPage.TotalConcat | app/cart/page.tsx:23 | the total is additive over concatenation |
| CartPage.TotalAfterRemove | app/cart/page.tsx:19-23 | after removal the total drops by exactly the prices of the removed items |
| CartPage.RemoveAbsent | app/cart/page.tsx:20 | removing an id no item has leaves the cart unchanged |
| CartPage.InitialTotal | app/cart/page.tsx:11-23 | the initial two items total 310000 |
| OrderPage.ChangeQuantity | app/order/page.tsx:48-50 | the new quantity is max(1, quantity + change) |
| OrderPage.QuantityAfter | app/order/page.tsx:33-50 | starting from 1, the quantity never drops below 1 |
| OrderPage.QuantityBounded | app/order/page.tsx:98-104 | with +1/-1 clicks the quantity stays within 1..1+clicks |
| OrderPage.IncrementsCount | app/order/page.tsx:102 | n clicks on "+" give n+1 |
| OrderPage.StepperAtOne | app/order/page.tsx:98-104 | "-" at 1 stays 1, "+" adds one |
| OrderPage.TotalPrice | app/order/page.tsx:46 | 0 without ticket data; the unit price for one ticket; at least the unit price for quantity >= 1 |
| OrderPage.TotalPriceIsRungUp | app/order/page.tsx:46 | the total for n tickets is the unit price added up n times |
| OrderPage.TotalAfterIncrements | app/order/page.tsx:46-50 | after n clicks on "+" the total is the unit price added up n + 1 times |
| OrderPage.TotalPriceStep | app/order/page.tsx:46-49 | one more ticket adds one unit price to the total |
| OrderPage.EachFieldRequired | app/order/page.tsx:58 | an empty name, phone or e-mail, or an unticked agreement, each on its own disables the pay button |
| OrderPage.FilledFormEnabled | app/order/page.tsx:58 | three non-empty fields and a ticked agreement enable it |
| ProfilePage.Submit | app/mypage/profile/page.tsx:52-83 | without a new password only the name is sent; otherwise refuses in order: shorter than 6 UTF-16 code units, not confirmed, no current password; a change passing all three is sent with the name, the current password and the new password, and any sent change carries exactly those two passwords |
| ProfilePage.SubmitIff | app/mypage/profile/page.tsx:56-71 | sent exactly when there is no new password or it passes all three checks |
| ProfilePage.SentChangeWasChecked | app/mypage/profile/page.tsx:77-83 | a sent password change is 6+ long, confirmed, with a non-empty current password |
| ProfilePage.AfterSuccess | app/mypage/profile/page.tsx:85-92 | password boxes cleared; name and e-mail kept |
| ProfilePage.ResubmitSendsOnlyUsername | app/mypage/profile/page.tsx:77-92 | submitting again after a success sends the name alone |
| SellPage.SearchConcerts | app/sell/page.tsx:33-40 | an empty term gives no results; otherwise exactly the concerts whose lower-cased title contains the lower-cased term, each as often as listed, in order |
| SellPage.SearchIgnoresCase | app/sell/page.tsx:35 | lower-casing the term does not change the results |
| SellPage.SelectConcert | app/sell/page.tsx:42-46 | the concert is selected, term and results cleared, the other fields kept |
| SellPage.SelectionConsistentWithSearch | app/sell/page.tsx:33-46 | the cleared results agree with the search of the cleared term |
| SellPage.QuantityIrrelevant | app/sell/page.tsx:64 | the form check does not depend on the quantity |
| LoginPage.HandleLogin | app/login/page.tsx:31-72 | pattern first, then non-empty password, and `login` is called exactly when both pass; on success the e-mail is remembered iff the box is checked; on failure the message or the default is shown |
| LoginPage.RememberedEmailKeepsShape | app/login/page.tsx:56-60 | only e-mails of the accepted shape are ever remembered |
| LoginPage.CalledOnlyWithWellFormedInput | app/login/page.tsx:37-52 | `login` never sees an e-mail outside the pattern or an empty password |

## Left out

- Persistence through the ORM: the store is a sequence in table order. Ids and creation times the database assigns are parameters. Unique constraints appear only as preconditions of the lemmas that need them.
- A PUT body that sends `null` for a column that is not nullable makes the database update fail, which the handler turns into 500. The model reads such a `null` as an absent field. Only the four nullable ticket text columns tell `null` apart from absence.
- The catch-all 500 paths of every handler are not modelled. The exception is a stored concert price that cannot be parsed, which answers 500.
- The `include: { concert: true }` join of the tickets handler: a ticket is returned without its concert.
- `parseInt` of id and number fields: the model takes them already read as integers. NaN ids and fractional text are not modelled.
- `JSON.stringify`/`JSON.parse` of concert prices is replaced by `PriceCodec`, which covers an object of quoted grade keys and non-negative integer amounts. The reader skips JSON white space around tokens. It also accepts leading zeros in an amount, which `JSON.parse` rejects, and keeps a repeated key twice, where `JSON.parse` keeps the last value. A backslash in a key quotes the next character, so JSON's `\n` and `\u` escapes are not decoded. Fractions, exponents, negative numbers and other JSON values in the price field are not modelled.
- `PopularTickets.Get`: the random bumps are a parameter, each in 0..99 as `Math.floor(Math.random() * 100)` guarantees.
- Cookies, `fetch`, `localStorage`, toasts and navigation are recorded only as result fields: the login token cookie and the remembered e-mail. The `secure`, `sameSite` and `maxAge` cookie options are left out.
- The auth context between the pages and the handlers: the login page takes the login action as a function parameter, and the profile page stops at the payload it hands over.
- The debounced duplicate-e-mail check of the signup page is I/O: its result (`emailError`, `checkingEmail`) is an input of the form.
- The users store that the login handler imports (`users/data`) is not part of this model. The user rows of the users handler stand in for it.
- `UsersApi.Apply`: a PUT body may carry further columns besides e-mail and name; only those two and the dropped password are modelled.
- `UsersApi.Get`: the createdAt/updatedAt columns of the list answer are omitted.
- `UsersApi.EmptyEmailCanBeShared`: the lemma shows the handler's own check letting the update through. In the running system the unique constraint on the e-mail column, which is not modelled, makes that write fail with 500, so two users do not actually end up sharing "".
- `Common.Utf16Length`: a JavaScript string may hold an unpaired surrogate, which a Dafny `char` cannot; such strings are not modelled. `SignupPage.Rules` and `ProfilePage.Submit` measure passwords in UTF-16 code units through it.
- `Common.ToLower`: lower-casing is ASCII-only. Non-ASCII case mapping, in the pages and in the database's case-insensitive `contains`, is not modelled.
- `TicketsPage.NumberOf`: reads only integer text; decimal, exponent and padded text, which `Number` also accepts, is treated as NaN.
- `SearchPage.PriceKey`: a price with no digits gives NaN, and a NaN comparison makes the sort order implementation-defined; the model sorts it as 0.
- `SearchPage.GetPriceNumber`: very long digit strings lose precision in `parseInt`; the model's numbers are unbounded.
- `ConcertsApi.ByDate`: dates are ordered by character codes; database collation is not modelled. Ties keep table order in both ORM orderings.
- The order page looks its ticket up in a fixture table: the ticket is an optional parameter.
- Rendering, formatting (`Intl.DateTimeFormat`, `toLocaleString`) and all UI-only files.

=== FILE: cart_page.dfy ===
/** The cart page: removing items by id and the running total. */
module CartPage {
  import opened Common

  datatype CartItem = CartItem(id: int, title: string, artist: string, seat: string, price: int)

  function LacksId(id: int): CartItem -> bool {
    (x: CartItem) => x.id != id
  }

  function HasId(id: int): CartItem -> bool {
    (x: CartItem) => x.id == id
  }

  /** `removeItem(id)`: every item with that id goes, the rest stay in order. */
  function RemoveItem(items: seq<CartItem>, id: int): (r: seq<CartItem>)
    ensures forall x :: x in r <==> x in items && x.id != id
    ensures forall x :: multiset(r)[x] == if x.id != id then multiset(items)[x] else 0
    ensures IsSubsequence(r, items)
  {
    FilterMembers(items, LacksId(id));
    Filter(items, LacksId(id))
  }

  /** `items.reduce((sum, item) => sum + item.price, 0)`; integer addition is
      associative and commutative, so summing from the front gives the same total. */
  function Total(items: seq<CartItem>): (t: int)
    ensures (forall i :: 0 <= i < |items| ==> items[i].price >= 0) ==> t >= 0
  {
    if |items| == 0 then 0 else items[0].price + Total(items[1..])
  }

  /** The total of a concatenation is the sum of the totals. */
  lemma {:induction false} TotalConcat(a: seq<CartItem>, b: seq<CartItem>)
    ensures Total(a + b) == Total(a) + Total(b)
  {
    if |a| == 0 {
      assert a + b == b;
    } else {
      TotalConcat(a[1..], b);
      assert (a + b)[1..] == a[1..] + b;
    }
  }

  /** Removing an id lowers the total by exactly the prices of the items carrying it. */
  lemma {:induction false} TotalAfterRemove(items: seq<CartItem>, id: int)
    ensures Total(RemoveItem(items, id)) == Total(items) - Total(Filter(items, HasId(id)))
  {
    if |items| > 0 {
      TotalAfterRemove(items[1..], id);
    }
  }

  /** Removing an id no item carries leaves the cart as it was. */
  lemma RemoveAbsent(items: seq<CartItem>, id: int)
    requires forall i :: 0 <= i < |items| ==> items[i].id != id
    ensures RemoveItem(items, id) == items
  {
    FilterKeepsAll(items, LacksId(id));
  }

  /** The two items the page starts with total 310000. */
  lemma InitialTotal()
    ensures Total([CartItem(1, "세븐틴 콘서트", "세븐틴", "VIP", 165000),
                   CartItem(2, "데이식스 콘서트", "데이식스 (DAY6)", "R", 145000)]) == 310000
  {
  }
}

=== FILE: common.dfy ===
/** Shared vocabulary of the marketplace model: optional values, JavaScript
    truthiness of JSON fields, and the sequence and string operations that the
    route handlers and pages use (filter, first match, substring, ASCII case). */
module Common {

  /** An optional value; `None` stands for an absent or `null` JSON field. */
  datatype Option<+T> = None | Some(value: T)

  /** JavaScript truthiness of an optional string field: absent, null and "" are falsy. */
  predicate Truthy(o: Option<string>) {
    o.Some? && o.value != ""
  }

  /** JavaScript truthiness of an optional number field: absent, null and 0 are falsy. */
  predicate TruthyNumber(o: Option<int>) {
    o.Some? && o.value != 0
  }

  /** JavaScript's `length`: UTF-16 code units, so a character outside the Basic
      Multilingual Plane counts twice. */
  function Utf16Length(s: string): (n: nat)
    ensures |s| <= n <= 2 * |s|
    ensures (forall i :: 0 <= i < |s| ==> s[i] as int < 0x1_0000) ==> n == |s|
  {
    if |s| == 0 then 0
    else (if s[0] as int < 0x1_0000 then 1 else 2) + Utf16Length(s[1..])
  }

  /** `o || fallback` for an optional string field. */
  function OrDefault(o: Option<string>, fallback: string): (r: string)
    ensures Truthy(o) ==> r == o.value
    ensures !Truthy(o) ==> r == fallback
  {
    if Truthy(o) then o.value else fallback
  }

  /** `a` occurs in `b` in order, possibly with gaps. */
  predicate IsSubsequence<T(==)>(a: seq<T>, b: seq<T>)
    decreases |b|
  {
    |a| == 0 || (|b| > 0 && ((a[0] == b[0] && IsSubsequence(a[1..], b[1..])) || IsSubsequence(a, b[1..])))
  }

  /** `Array.prototype.filter`: the elements satisfying `p`, in their original order. */
  function Filter<T(==,!new)>(s: seq<T>, p: T -> bool): (r: seq<T>)
    ensures |r| <= |s|
    ensures forall i :: 0 <= i < |r| ==> p(r[i])
    ensures forall x :: multiset(r)[x] == if p(x) then multiset(s)[x] else 0
    ensures IsSubsequence(r, s)
  {
    if |s| == 0 then []
    else
      var rest := Filter(s[1..], p);
      assert s == [s[0]] + s[1..];
      if p(s[0]) then [s[0]] + rest else rest
  }

  /** An element survives the filter exactly when it was there and satisfies `p`. */
  lemma FilterMembers<T(!new)>(s: seq<T>, p: T -> bool)
    ensures forall x :: x in Filter(s, p) <==> x in s && p(x)
  {
    var r := Filter(s, p);
    forall x ensures x in r <==> x in s && p(x) {
      assert x in r <==> x in multiset(r);
      assert x in s <==> x in multiset(s);
    }
  }

  /** Sequences with equal multisets have the same members. */
  lemma MultisetMembers<T>(a: seq<T>, b: seq<T>)
    requires multiset(a) == multiset(b)
    ensures forall x :: x in a <==> x in b
  {
    forall x ensures x in a <==> x in b {
      assert x in a <==> x in multiset(a);
      assert x in b <==> x in multiset(b);
    }
  }

  /** Keeping every element leaves the sequence as it was. */
  lemma {:induction false} FilterKeepsAll<T(!new)>(s: seq<T>, p: T -> bool)
    requires forall i :: 0 <= i < |s| ==> p(s[i])
    ensures Filter(s, p) == s
  {
    if |s| > 0 {
      FilterKeepsAll(s[1..], p);
    }
  }

  /** Filtering a list with a head: the head if it passes, then the filtered tail. */
  lemma FilterCons<T(!new)>(x: T, s: seq<T>, p: T -> bool)
    ensures Filter([x] + s, p) == (if p(x) then [x] else []) + Filter(s, p)
  {
    assert ([x] + s)[1..] == s;
  }

  /** Filtering a concatenation filters each part. */
  lemma {:induction false} FilterConcat<T(!new)>(a: seq<T>, b: seq<T>, p: T -> bool)
    ensures Filter(a + b, p) == Filter(a, p) + Filter(b, p)
  {
    if |a| == 0 {
      assert a + b == b;
    } else {
      var ab := a + b;
      assert ab[0] == a[0];
      assert ab[1..] == a[1..] + b;
      FilterConcat(a[1..], b, p);
    }
  }

  /** Appending an element the filter rejects to a sequence it keeps whole filters back to that sequence. */
  lemma FilterDropsAppended<T(!new)>(s: seq<T>, x: T, p: T -> bool)
    requires forall i :: 0 <= i < |s| ==> p(s[i])
    requires !p(x)
    ensures Filter(s + [x], p) == s
  {
    FilterConcat(s, [x], p);
    FilterKeepsAll(s, p);
    FilterKeepsNone([x], p);
    assert s + [] == s;
  }

  /** Keeping no element leaves nothing. */
  lemma {:induction false} FilterKeepsNone<T(!new)>(s: seq<T>, p: T -> bool)
    requires forall i :: 0 <= i < |s| ==> !p(s[i])
    ensures Filter(s, p) == []
  {
    if |s| > 0 {
      FilterKeepsNone(s[1..], p);
    }
  }

  /** `Array.prototype.find`: the first element satisfying `p`. */
  function FindFirst<T>(s: seq<T>, p: T -> bool): (r: Option<T>)
    ensures r.Some? <==> exists i :: 0 <= i < |s| && p(s[i])
    ensures r.Some? ==> p(r.value) && exists i :: 0 <= i < |s| && s[i] == r.value && forall k :: 0 <= k < i ==> !p(s[k])
  {
    if |s| == 0 then None
    else if p(s[0]) then Some(s[0])
    else
      var r := FindFirst(s[1..], p);
      assert forall i :: 1 <= i < |s| ==> s[i] == s[1..][i - 1];
      r
  }

  /** Each element satisfying `p` rewritten by `f`, every other element kept in place. */
  function ReplaceWhere<T>(s: seq<T>, p: T -> bool, f: T -> T): (r: seq<T>)
    ensures |r| == |s|
    ensures forall i :: 0 <= i < |s| && p(s[i]) ==> r[i] == f(s[i])
    ensures forall i :: 0 <= i < |s| && !p(s[i]) ==> r[i] == s[i]
  {
    seq(|s|, i requires 0 <= i < |s| => if p(s[i]) then f(s[i]) else s[i])
  }

  /** `Array.prototype.map`. */
  function MapSeq<A, B>(s: seq<A>, f: A -> B): (r: seq<B>)
    ensures |r| == |s|
    ensures forall i :: 0 <= i < |s| ==> r[i] == f(s[i])
  {
    seq(|s|, i requires 0 <= i < |s| => f(s[i]))
  }

  /** Removing the element at `k` removes one copy of it from the multiset. */
  lemma RemoveAtMultiset<T>(s: seq<T>, k: int)
    requires 0 <= k < |s|
    ensures multiset(s[..k] + s[k + 1..]) == multiset(s) - multiset{s[k]}
  {
    assert s == s[..k] + [s[k]] + s[k + 1..];
    assert multiset(s) == multiset(s[..k]) + multiset{s[k]} + multiset(s[k + 1..]);
  }

  /** Mapping `s` gives the image of `s` without its element at `k`, plus that element's image. */
  lemma MapSeqSplitAt<A, B>(s: seq<A>, k: int, f: A -> B)
    requires 0 <= k < |s|
    ensures multiset(MapSeq(s, f)) == multiset(MapSeq(s[..k] + s[k + 1..], f)) + multiset{f(s[k])}
  {
    var m := MapSeq(s, f);
    assert MapSeq(s[..k] + s[k + 1..], f) == m[..k] + m[k + 1..];
    RemoveAtMultiset(m, k);
    assert m[k] in multiset(m);
  }

  /** Mapping two sequences with the same elements gives sequences with the same elements. */
  lemma {:induction false} MapSeqRespectsMultiset<A, B>(a: seq<A>, b: seq<A>, f: A -> B)
    requires multiset(a) == multiset(b)
    ensures multiset(MapSeq(a, f)) == multiset(MapSeq(b, f))
    decreases |a|
  {
    if |a| == 0 {
      assert |b| == |multiset(b)| == 0;
    } else {
      var k := MatchingIndex(a, b);
      MapSeqRespectsMultiset(a[1..], b[..k] + b[k + 1..], f);
      MapSeqRestoreAt(a, b, k, f);
    }
  }

  /** Where `b` holds the head of `a`, when both hold the same elements; removing it
      from both leaves equal multisets. */
  lemma MatchingIndex<A>(a: seq<A>, b: seq<A>) returns (k: int)
    requires multiset(a) == multiset(b) && |a| > 0
    ensures 0 <= k < |b| && b[k] == a[0]
    ensures multiset(a[1..]) == multiset(b[..k] + b[k + 1..])
  {
    assert a == [a[0]] + a[1..];
    assert multiset(a) == multiset(a[1..]) + multiset{a[0]};
    assert a[0] in multiset(b);
    k :| 0 <= k < |b| && b[k] == a[0];
    assert b == (b[..k] + b[k + 1..])[..k] + [b[k]] + (b[..k] + b[k + 1..])[k..];
    InsertAtMultiset(b[..k] + b[k + 1..], k, b[k]);
    AddCancel(multiset(a[1..]), multiset(b[..k] + b[k + 1..]), a[0]);
  }

  /** Inserting `x` at index `k` adds one copy of it. */
  lemma InsertAtMultiset<T>(s: seq<T>, k: int, x: T)
    requires 0 <= k <= |s|
    ensures multiset(s[..k] + [x] + s[k..]) == multiset(s) + multiset{x}
  {
    assert s == s[..k] + s[k..];
  }

  lemma AddCancel<T>(m: multiset<T>, n: multiset<T>, x: T)
    requires m + multiset{x} == n + multiset{x}
    ensures m == n
  {
    forall y ensures m[y] == n[y] {
      assert (m + multiset{x})[y] == (n + multiset{x})[y];
    }
  }

  /** Putting back the element removed at index 0 of `a` and at index `k` of `b`
      keeps the images' multisets equal. */
  lemma MapSeqRestoreAt<A, B>(a: seq<A>, b: seq<A>, k: int, f: A -> B)
    requires |a| > 0 && 0 <= k < |b| && b[k] == a[0]
    requires multiset(MapSeq(a[1..], f)) == multiset(MapSeq(b[..k] + b[k + 1..], f))
    ensures multiset(MapSeq(a, f)) == multiset(MapSeq(b, f))
  {
    var y := f(a[0]);
    assert MapSeq(a, f) == [y] + MapSeq(a[1..], f);
    MapSeqSplitAt(b, k, f);
  }

  /** `String.prototype.includes`: `part` occurs contiguously in `text`. */
  predicate Contains(text: string, part: string) {
    exists i | 0 <= i <= |text| - |part| :: OccursAt(text, part, i)
  }

  /** `part` occurs in `text` starting at index `i`. */
  predicate OccursAt(text: string, part: string, i: int) {
    0 <= i <= |text| - |part| && text[i..i + |part|] == part
  }

  /** Every string contains the empty string. */
  lemma ContainsEmpty(text: string)
    ensures Contains(text, "")
  {
    assert OccursAt(text, "", 0);
  }

  /** `toLowerCase` restricted to ASCII: A-Z become a-z, every other character is kept. */
  function LowerChar(c: char): char {
    if 'A' <= c <= 'Z' then (c as int + 32) as char else c
  }

  function ToLower(s: string): string {
    seq(|s|, i requires 0 <= i < |s| => LowerChar(s[i]))
  }

  /** Case-insensitive substring test: both sides lower-cased, then `includes`. */
  predicate ContainsIgnoringCase(text: string, part: string) {
    Contains(ToLower(text), ToLower(part))
  }

  /** No two rows share a key: the table's primary-key constraint. */
  predicate UniqueKeys<T>(s: seq<T>, key: T -> int) {
    forall i, j :: 0 <= i < j < |s| ==> key(s[i]) != key(s[j])
  }

  function KeyIsNot<T>(key: T -> int, k: int): T -> bool {
    x => key(x) != k
  }

  /** The rows whose key differs from `k`: a delete by primary key. */
  function WithoutKey<T(==,!new)>(s: seq<T>, key: T -> int, k: int): (r: seq<T>)
    ensures forall x :: x in r <==> x in s && key(x) != k
    ensures IsSubsequence(r, s)
  {
    FilterMembers(s, KeyIsNot(key, k));
    Filter(s, KeyIsNot(key, k))
  }

  /** Dropping the rows with one key keeps the other keys unique. */
  lemma {:induction false} FilterKeepsUniqueKeys<T(!new)>(s: seq<T>, key: T -> int, k: int)
    requires UniqueKeys(s, key)
    ensures UniqueKeys(WithoutKey(s, key, k), key)
  {
    if |s| > 0 {
      FilterKeepsUniqueKeys(s[1..], key, k);
      var rest := WithoutKey(s[1..], key, k);
      forall j | 0 <= j < |rest| ensures key(s[0]) != key(rest[j]) {
        assert rest[j] in s[1..];
        var i :| 0 <= i < |s[1..]| && s[1..][i] == rest[j];
        assert s[i + 1] == rest[j];
      }
    }
  }

  /** With unique keys, dropping the rows with a present key removes exactly one row. */
  lemma {:induction false} FilterOutPresentKey<T(!new)>(s: seq<T>, key: T -> int, k: int)
    requires UniqueKeys(s, key)
    requires exists i :: 0 <= i < |s| && key(s[i]) == k
    ensures |WithoutKey(s, key, k)| == |s| - 1
  {
    if key(s[0]) == k {
      FilterKeepsAll(s[1..], KeyIsNot(key, k));
    } else {
      var i :| 0 <= i < |s| && key(s[i]) == k;
      assert key(s[1..][i - 1]) == k;
      FilterOutPresentKey(s[1..], key, k);
    }
  }
}

=== FILE: concerts_api.dfy ===
/** The concerts handler: GET (one by id, or a filtered list ordered by date),
    POST (create with defaults), PUT (update, keeping the price unless one is
    sent) and DELETE, over the concert table. */
module ConcertsApi {
  import opened Common
  import opened Sorting
  import opened PriceCodec

  /** A row of the concert table; `price` holds the price object as text. */
  datatype Concert = Concert(
    id: int, title: string, artist: string, date: string, time: string, venue: string,
    address: string, posterImage: string, description: string, category: string,
    price: string, seatMap: string, status: string)

  /** A concert as the handlers answer it: the row, with its price text parsed. */
  datatype ConcertView = ConcertView(concert: Concert, price: seq<PriceEntry>)

  /** Query-string parameters of GET; `None` for an absent parameter, and a numeric
      one already read as a number. */
  datatype Query = Query(id: Option<int>, category: Option<string>, status: Option<string>, text: Option<string>)

  /** A POST body: every field optional. */
  datatype ConcertDraft = ConcertDraft(
    title: Option<string>, artist: Option<string>, date: Option<string>, time: Option<string>,
    venue: Option<string>, address: Option<string>, posterImage: Option<string>,
    description: Option<string>, category: Option<string>, price: Option<seq<PriceEntry>>,
    seatMap: Option<string>, status: Option<string>)

  /** A PUT body: `id` selects the row, every other present field is written. */
  datatype ConcertPatch = ConcertPatch(
    id: Option<int>, title: Option<string>, artist: Option<string>, date: Option<string>,
    time: Option<string>, venue: Option<string>, address: Option<string>,
    posterImage: Option<string>, description: Option<string>, category: Option<string>,
    price: Option<seq<PriceEntry>>, seatMap: Option<string>, status: Option<string>)

  datatype Body = One(concert: ConcertView) | Many(concerts: seq<ConcertView>) | Done | Failure(message: string)

  /** Status code, JSON body and the concert table after the request. */
  datatype Response = Response(status: int, body: Body, store: seq<Concert>)

  const NotFoundMessage: string := "공연을 찾을 수 없습니다"
  const MissingFieldsMessage: string := "필수 정보가 누락되었습니다"
  const MissingIdMessage: string := "공연 ID가 필요합니다"
  const ReadFailedMessage: string := "공연 정보를 가져오는데 실패했습니다"
  const UpdateFailedMessage: string := "공연 정보 수정에 실패했습니다"
  const CreateFailedMessage: string := "공연 정보 추가에 실패했습니다"

  const DefaultStatus: string := "upcoming"

  function FindById(store: seq<Concert>, id: int): (r: Option<Concert>)
    ensures r.Some? <==> exists i :: 0 <= i < |store| && store[i].id == id
    ensures r.Some? ==> r.value in store && r.value.id == id
  {
    FindFirst(store, (c: Concert) => c.id == id)
  }

  /** The list filters: equal category, equal status, and the search text
      occurring, with case, in the title, the artist or the venue. */
  predicate Selected(c: Concert, q: Query) {
    && (Truthy(q.category) ==> c.category == q.category.value)
    && (Truthy(q.status) ==> c.status == q.status.value)
    && (Truthy(q.text) ==> Contains(c.title, q.text.value) || Contains(c.artist, q.text.value) || Contains(c.venue, q.text.value))
  }

  /** `orderBy: { date: 'asc' }`. */
  function ByDate(): (le: (Concert, Concert) -> bool)
    ensures TotalPreorder(le)
    ensures forall a, b :: le(a, b) <==> LexLe(a.date, b.date)
  {
    LexLeIsTotalPreorder();
    (a: Concert, b: Concert) => LexLe(a.date, b.date)
  }

  /** Parses the price text of every row; `None` when one of them does not parse. */
  function ShowAll(rows: seq<Concert>): (r: Option<seq<ConcertView>>)
    ensures r.None? <==> exists i :: 0 <= i < |rows| && Decode(rows[i].price).None?
    ensures r.Some? ==> |r.value| == |rows| && forall i :: 0 <= i < |rows| ==>
      r.value[i].concert == rows[i] && Decode(rows[i].price) == Some(r.value[i].price)
  {
    if |rows| == 0 then Some([])
    else
      var rest := ShowAll(rows[1..]);
      var head := Decode(rows[0].price);
      assert forall i :: 1 <= i < |rows| ==> rows[i] == rows[1..][i - 1];
      if head.None? || rest.None? then None
      else Some([ConcertView(rows[0], head.value)] + rest.value)
  }

  /** GET with an id: that concert, or 404. */
  function GetOne(store: seq<Concert>, id: int): (r: Response)
    ensures r.store == store
    ensures r.status == 404 <==> forall i :: 0 <= i < |store| ==> store[i].id != id
    ensures r.status == 200 <==> FindById(store, id).Some? && Decode(FindById(store, id).value.price).Some?
    ensures r.status in {200, 404, 500}
    ensures r.status == 200 ==>
      && r.body.One? && r.body.concert.concert in store
      && r.body.concert.concert.id == id && Decode(r.body.concert.concert.price) == Some(r.body.concert.price)
  {
    match FindById(store, id)
    case None => Response(404, Failure(NotFoundMessage), store)
    case Some(c) =>
      match Decode(c.price)
      case None => Response(500, Failure(ReadFailedMessage), store)
      case Some(p) => Response(200, One(ConcertView(c, p)), store)
  }

  /** The list filter as a value, so that the lemmas about it name the same function. */
  function Matches(q: Query): Concert -> bool {
    (c: Concert) => Selected(c, q)
  }

  /** The rows a list GET answers, before their prices are parsed: the selected
      rows ordered by date. */
  function Listed(store: seq<Concert>, q: Query): (rows: seq<Concert>)
    ensures forall i, j :: 0 <= i < j < |rows| ==> LexLe(rows[i].date, rows[j].date)
  {
    Sort(Filter(store, Matches(q)), ByDate())
  }

  lemma ListedMembers(store: seq<Concert>, q: Query)
    ensures forall c :: c in Listed(store, q) <==> c in store && Selected(c, q)
    ensures multiset(Listed(store, q)) == multiset(Filter(store, Matches(q)))
  {
    FilterMembers(store, Matches(q));
    SortMembers(Filter(store, Matches(q)), ByDate());
  }

  /** The list parses exactly when every selected row's price text parses. */
  lemma ListedShows(store: seq<Concert>, q: Query)
    ensures ShowAll(Listed(store, q)).Some? <==> forall c :: c in store && Selected(c, q) ==> Decode(c.price).Some?
  {
    ListedMembers(store, q);
    var rows := Listed(store, q);
    if ShowAll(rows).None? {
      var i :| 0 <= i < |rows| && Decode(rows[i].price).None?;
      assert rows[i] in rows;
    }
  }

  /** GET: one concert when an id is given, otherwise the filtered list by date. */
  function Get(store: seq<Concert>, q: Query): (r: Response)
    ensures r.store == store
    ensures q.id.Some? ==> r == GetOne(store, q.id.value)
    ensures q.id.None? ==> r.status in {200, 500}
    ensures q.id.None? ==>
      (r.status == 200 <==> forall c :: c in store && Selected(c, q) ==> Decode(c.price).Some?)
    ensures q.id.None? && r.status == 200 ==>
      && r.body.Many?
      && var rows := MapSeq(r.body.concerts, (v: ConcertView) => v.concert);
      && (forall i :: 0 <= i < |rows| ==> rows[i] in store && Selected(rows[i], q))
      && (forall c :: c in store && Selected(c, q) ==> c in rows)
      && (forall i, j :: 0 <= i < j < |rows| ==> LexLe(rows[i].date, rows[j].date))
    ensures q.id.None? && r.status == 200 ==>
      && r.body.Many?
      && var listed := Listed(store, q);
      && |r.body.concerts| == |listed|
      && forall i :: 0 <= i < |listed| ==>
        r.body.concerts[i].concert == listed[i] && Decode(listed[i].price) == Some(r.body.concerts[i].price)
  {
    if q.id.Some? then GetOne(store, q.id.value)
    else
      var ordered := Listed(store, q);
      ListedMembers(store, q);
      ListedShows(store, q);
      match ShowAll(ordered)
      case None => Response(500, Failure(ReadFailedMessage), store)
      case Some(views) =>
        assert MapSeq(views, (v: ConcertView) => v.concert) == ordered;
        Response(200, Many(views), store)
  }

  /** The row a valid POST creates, with the defaults of the create handler. */
  function NewConcert(d: ConcertDraft, id: int): Concert
    requires Truthy(d.title) && Truthy(d.artist) && Truthy(d.date) && Truthy(d.venue)
  {
    Concert(
      id, d.title.value, d.artist.value, d.date.value, OrDefault(d.time, ""), d.venue.value,
      OrDefault(d.address, ""), OrDefault(d.posterImage, ""), OrDefault(d.description, ""),
      OrDefault(d.category, ""), Encode(if d.price.Some? then d.price.value else []),
      OrDefault(d.seatMap, ""), OrDefault(d.status, DefaultStatus))
  }

  /** POST: 400 without title, artist, date or venue; otherwise one row appended
      under the id the table assigns, answered with its price parsed back. */
  function Post(store: seq<Concert>, d: ConcertDraft, newId: int): (r: Response)
    ensures !(Truthy(d.title) && Truthy(d.artist) && Truthy(d.date) && Truthy(d.venue)) ==>
      r == Response(400, Failure(MissingFieldsMessage), store)
    ensures Truthy(d.title) && Truthy(d.artist) && Truthy(d.date) && Truthy(d.venue) ==>
      && r.status == 201
      && r.body.One?
      && r.store == store + [r.body.concert.concert]
      && var c := r.body.concert.concert;
      && c.id == newId && c.title == d.title.value && c.artist == d.artist.value
      && c.date == d.date.value && c.venue == d.venue.value
      && c.time == OrDefault(d.time, "") && c.address == OrDefault(d.address, "")
      && c.posterImage == OrDefault(d.posterImage, "") && c.description == OrDefault(d.description, "")
      && c.category == OrDefault(d.category, "") && c.seatMap == OrDefault(d.seatMap, "")
      && c.status == OrDefault(d.status, DefaultStatus)
      && r.body.concert.price == (if d.price.Some? then d.price.value else [])
  {
    if !(Truthy(d.title) && Truthy(d.artist) && Truthy(d.date) && Truthy(d.venue)) then
      Response(400, Failure(MissingFieldsMessage), store)
    else
      var c := NewConcert(d, newId);
      DecodeEncode(if d.price.Some? then d.price.value else []);
      match Decode(c.price)
      case None => Response(500, Failure(CreateFailedMessage), store)
      case Some(p) => Response(201, One(ConcertView(c, p)), store + [c])
  }

  /** The row after a PUT: present fields overwrite; the price only when one is sent. */
  function Apply(c: Concert, p: ConcertPatch): Concert {
    Concert(
      c.id,
      if p.title.Some? then p.title.value else c.title,
      if p.artist.Some? then p.artist.value else c.artist,
      if p.date.Some? then p.date.value else c.date,
      if p.time.Some? then p.time.value else c.time,
      if p.venue.Some? then p.venue.value else c.venue,
      if p.address.Some? then p.address.value else c.address,
      if p.posterImage.Some? then p.posterImage.value else c.posterImage,
      if p.description.Some? then p.description.value else c.description,
      if p.category.Some? then p.category.value else c.category,
      if p.price.Some? then Encode(p.price.value) else c.price,
      if p.seatMap.Some? then p.seatMap.value else c.seatMap,
      if p.status.Some? then p.status.value else c.status)
  }

  /** PUT: 400 without an id, 404 for an unknown id, otherwise the row is rewritten. */
  function Put(store: seq<Concert>, p: ConcertPatch): (r: Response)
    ensures !TruthyNumber(p.id) ==> r == Response(400, Failure(MissingIdMessage), store)
    ensures TruthyNumber(p.id) && FindById(store, p.id.value).None? ==> r == Response(404, Failure(NotFoundMessage), store)
    ensures TruthyNumber(p.id) && FindById(store, p.id.value).Some? ==>
      var id := p.id.value;
      var prior := FindById(store, id).value;
      && r.status in {200, 500}
      && (r.status == 200 <==> Decode(Apply(prior, p).price).Some?)
      && (p.price.Some? ==> r.status == 200)
      && |r.store| == |store|
      && (forall i :: 0 <= i < |store| && store[i].id != id ==> r.store[i] == store[i])
      && (forall i :: 0 <= i < |store| && store[i].id == id ==> r.store[i] == Apply(store[i], p))
      && (p.price.None? ==> forall i :: 0 <= i < |store| ==> r.store[i].price == store[i].price)
      && (r.status == 200 ==>
          && r.body.One? && r.body.concert.concert == Apply(prior, p)
          && (p.price.Some? ==> r.body.concert.price == p.price.value))
  {
    if !TruthyNumber(p.id) then Response(400, Failure(MissingIdMessage), store)
    else
      var id := p.id.value;
      match FindById(store, id)
      case None => Response(404, Failure(NotFoundMessage), store)
      case Some(c) =>
        var updated := Apply(c, p);
        var rows := ReplaceWhere(store, (x: Concert) => x.id == id, (x: Concert) => Apply(x, p));
        if p.price.Some? then DecodeEncode(p.price.value); ShowUpdated(rows, updated)
        else ShowUpdated(rows, updated)
  }

  function ShowUpdated(rows: seq<Concert>, updated: Concert): (r: Response)
    ensures r.store == rows
    ensures r.status == 200 <==> Decode(updated.price).Some?
    ensures r.status == 200 ==> r.body == One(ConcertView(updated, Decode(updated.price).value))
    ensures r.status != 200 ==> r.status == 500
  {
    match Decode(updated.price)
    case None => Response(500, Failure(UpdateFailedMessage), rows)
    case Some(price) => Response(200, One(ConcertView(updated, price)), rows)
  }

  /** DELETE: 400 without an id, 404 for an unknown id, otherwise the row is removed. */
  function Delete(store: seq<Concert>, id: Option<int>): (r: Response)
    ensures !TruthyNumber(id) ==> r == Response(400, Failure(MissingIdMessage), store)
    ensures TruthyNumber(id) && FindById(store, id.value).None? ==> r == Response(404, Failure(NotFoundMessage), store)
    ensures TruthyNumber(id) && FindById(store, id.value).Some? ==>
      && r.status == 200 && r.body == Done
      && (forall c :: c in r.store <==> c in store && c.id != id.value)
      && IsSubsequence(r.store, store)
  {
    if !TruthyNumber(id) then Response(400, Failure(MissingIdMessage), store)
    else
      match FindById(store, id.value)
      case None => Response(404, Failure(NotFoundMessage), store)
      case Some(_) =>
        Response(200, Done, WithoutKey(store, Key, id.value))
  }

  function Key(c: Concert): int {
    c.id
  }

  /** With unique ids, a successful DELETE removes exactly one row and keeps ids unique. */
  lemma DeleteRemovesOne(store: seq<Concert>, id: int)
    requires UniqueKeys(store, Key)
    requires FindById(store, id).Some?
    requires id != 0
    ensures |Delete(store, Some(id)).store| == |store| - 1
    ensures UniqueKeys(Delete(store, Some(id)).store, Key)
  {
    FilterOutPresentKey(store, Key, id);
    FilterKeepsUniqueKeys(store, Key, id);
  }

  /** A concert created under a fresh id is then found by GET with that id, and
      answered with the price that was sent. */
  lemma PostThenGetOne(store: seq<Concert>, d: ConcertDraft, newId: int)
    requires Truthy(d.title) && Truthy(d.artist) && Truthy(d.date) && Truthy(d.venue)
    requires forall i :: 0 <= i < |store| ==> store[i].id != newId
    ensures var created := Post(store, d, newId);
      var r := GetOne(created.store, newId);
      && r.status == 200
      && r.body == created.body
      && r.body.concert.price == (if d.price.Some? then d.price.value else [])
  {
    var created := Post(store, d, newId);
    var c := created.body.concert.concert;
    assert created.store == store + [c];
    assert created.store[|store|] == c;
    var found := FindById(created.store, newId);
    assert found.value !in store;
    assert found == Some(c);
    DecodeEncode(if d.price.Some? then d.price.value else []);
  }

  /** A PUT that sends a price is answered 200, and GET then reads the sent price back. */
  lemma PutThenGetOne(store: seq<Concert>, p: ConcertPatch)
    requires TruthyNumber(p.id) && FindById(store, p.id.value).Some?
    requires p.price.Some?
    ensures var updated := Put(store, p);
      var r := GetOne(updated.store, p.id.value);
      && updated.status == 200
      && r.status == 200
      && r.body.concert.price == p.price.value
  {
    var updated := Put(store, p);
    var id := p.id.value;
    var i :| 0 <= i < |store| && store[i].id == id;
    assert updated.store[i] == Apply(store[i], p);
    PriceOfEveryMatch(store, updated.store, p);
    GetOneReadsPrice(updated.store, id, p.price.value);
  }

  lemma PriceOfEveryMatch(store: seq<Concert>, rows: seq<Concert>, p: ConcertPatch)
    requires p.id.Some? && p.price.Some? && |rows| == |store|
    requires forall i :: 0 <= i < |store| && store[i].id == p.id.value ==> rows[i] == Apply(store[i], p)
    requires forall i :: 0 <= i < |store| && store[i].id != p.id.value ==> rows[i] == store[i]
    ensures forall c :: c in rows && c.id == p.id.value ==> c.price == Encode(p.price.value)
  {
    forall c | c in rows && c.id == p.id.value
      ensures c.price == Encode(p.price.value)
    {
      var k :| 0 <= k < |rows| && rows[k] == c;
      assert store[k].id == p.id.value;
    }
  }

  /** When every row with the id holds the encoded price, GET by id reads that price. */
  lemma GetOneReadsPrice(rows: seq<Concert>, id: int, price: seq<PriceEntry>)
    requires exists i :: 0 <= i < |rows| && rows[i].id == id
    requires forall c :: c in rows && c.id == id ==> c.price == Encode(price)
    ensures GetOne(rows, id).status == 200 && GetOne(rows, id).body.concert.price == price
  {
    DecodeEncode(price);
  }

  /** A POST under a fresh id keeps ids unique. */
  lemma PostKeepsIdsUnique(store: seq<Concert>, d: ConcertDraft, newId: int)
    requires UniqueKeys(store, Key)
    requires forall i :: 0 <= i < |store| ==> store[i].id != newId
    ensures UniqueKeys(Post(store, d, newId).store, Key)
  {
  }
}

=== FILE: decimal.dfy ===
/** Decimal text of integers: the rendering used for ids in tokens and for
    prices in the stored price text, and the digit parsing that reads them back. */
module Decimal {

  predicate IsDigit(c: char) {
    '0' <= c <= '9'
  }

  predicate AllDigits(s: string) {
    forall i :: 0 <= i < |s| ==> IsDigit(s[i])
  }

  function DigitChar(d: nat): (c: char)
    requires d < 10
  {
    ('0' as int + d) as char
  }

  /** Value of a string of decimal digits, most significant digit first. */
  function DigitsValue(s: string): nat
    requires AllDigits(s)
  {
    if |s| == 0 then 0
    else DigitsValue(s[..|s| - 1]) * 10 + (s[|s| - 1] as int - '0' as int)
  }

  /** `n.toString()` for a non-negative integer: shortest decimal, no leading zeros. */
  function NatToString(n: nat): (s: string)
    ensures |s| > 0 && AllDigits(s)
    ensures |s| > 1 ==> s[0] != '0'
    decreases n
  {
    if n < 10 then [DigitChar(n)] else NatToString(n / 10) + [DigitChar(n % 10)]
  }

  /** `String(i)` for any integer. */
  function IntToString(i: int): (s: string)
    ensures |s| > 0
    ensures i < 0 <==> s[0] == '-'
  {
    if i < 0 then "-" + NatToString(-i) else NatToString(i)
  }

  /** The longest prefix of `s` made of digits. */
  function DigitPrefix(s: string): (d: string)
    ensures |d| <= |s| && d == s[..|d|]
    ensures AllDigits(d)
    ensures |d| < |s| ==> !IsDigit(s[|d|])
  {
    if |s| == 0 || !IsDigit(s[0]) then "" else [s[0]] + DigitPrefix(s[1..])
  }

  /** Reading back the decimal text of `n` gives `n`. */
  lemma {:induction false} DigitsValueOfNatToString(n: nat)
    ensures DigitsValue(NatToString(n)) == n
    decreases n
  {
    if n >= 10 {
      DigitsValueOfNatToString(n / 10);
      var s := NatToString(n);
      assert s[..|s| - 1] == NatToString(n / 10);
    }
  }

  /** The digit prefix of a digit string followed by a non-digit is that digit string. */
  lemma {:induction false} DigitPrefixOfDigits(d: string, rest: string)
    requires AllDigits(d)
    requires |rest| == 0 || !IsDigit(rest[0])
    ensures DigitPrefix(d + rest) == d
  {
    if |d| > 0 {
      assert (d + rest)[1..] == d[1..] + rest;
      DigitPrefixOfDigits(d[1..], rest);
    }
  }

  /** Reads an optional minus sign followed by at least one digit and nothing else. */
  function ParseInt(s: string): (r: int)
    requires |s| > 0
    requires AllDigits(s) || (s[0] == '-' && |s| > 1 && AllDigits(s[1..]))
  {
    if s[0] == '-' then -(DigitsValue(s[1..]) as int) else DigitsValue(s)
  }

  /** `String(i)` is read back as `i`; so distinct integers have distinct texts. */
  lemma IntToStringRoundTrip(i: int)
    ensures var s := IntToString(i);
      (AllDigits(s) || (s[0] == '-' && |s| > 1 && AllDigits(s[1..]))) && ParseInt(s) == i
  {
    if i < 0 {
      DigitsValueOfNatToString(-i);
      assert IntToString(i)[1..] == NatToString(-i);
    } else {
      DigitsValueOfNatToString(i);
    }
  }

  /** Different integers are rendered as different strings. */
  lemma IntToStringInjective(i: int, j: int)
    requires IntToString(i) == IntToString(j)
    ensures i == j
  {
    IntToStringRoundTrip(i);
    IntToStringRoundTrip(j);
  }
}

=== FILE: email_pattern.dfy ===
/** The e-mail pattern `^[^\s@]+@[^\s@]+\.[^\s@]+$` shared by the signup page,
    the login page and the user registration handler. */
module EmailPattern {

  /** JavaScript's `\s` class: the ECMAScript white-space and line-terminator characters. */
  predicate IsSpace(c: char) {
    || c == '\t' || c == '\n' || c == '\U{000B}' || c == '\U{000C}' || c == '\r' || c == ' '
    || c == '\U{00A0}' || c == '\U{1680}' || ('\U{2000}' <= c <= '\U{200A}')
    || c == '\U{2028}' || c == '\U{2029}' || c == '\U{202F}' || c == '\U{205F}'
    || c == '\U{3000}' || c == '\U{FEFF}'
  }

  /** The class `[^\s@]`. */
  predicate IsPlain(c: char) {
    !IsSpace(c) && c != '@'
  }

  /** The pattern, read as: `s` is `A@B.C` with `A`, `B`, `C` non-empty runs of `[^\s@]`.
      The '@' sits at `at` and the separating '.' at `dot`; every other character is plain. */
  predicate Matches(s: string) {
    exists at, dot | 0 < at < |s| && at + 1 < dot < |s| - 1 :: SplitsAt(s, at, dot)
  }

  predicate SplitsAt(s: string, at: int, dot: int) {
    && 0 < at && at + 1 < dot < |s| - 1
    && s[at] == '@' && s[dot] == '.'
    && forall i :: 0 <= i < |s| && i != at ==> IsPlain(s[i])
  }

  /** One left-to-right scan deciding the pattern: locate the single '@', make sure
      nothing else is a space or '@', then look for a '.' that leaves both `B` and
      `C` non-empty. */
  method Test(s: string) returns (ok: bool)
    ensures ok <==> Matches(s)
  {
    var at := -1;
    var clean := true;
    var i := 0;
    while i < |s|
      invariant 0 <= i <= |s|
      invariant -1 <= at < i
      invariant at == -1 ==> forall k :: 0 <= k < i ==> s[k] != '@'
      invariant at >= 0 ==> s[at] == '@' && forall k :: 0 <= k < at ==> s[k] != '@'
      invariant clean <==> forall k :: 0 <= k < i && k != at ==> IsPlain(s[k])
    {
      if s[i] == '@' && at == -1 {
        at := i;
      } else if !IsPlain(s[i]) {
        clean := false;
      }
      i := i + 1;
    }
    if at <= 0 || !clean {
      ok := false;
      if at == 0 {
        assert !IsPlain(s[0]);
      }
      return;
    }
    assert forall a :: 0 <= a < |s| && a != at ==> s[a] != '@';
    var j := at + 2;
    ok := false;
    while j < |s| - 1
      invariant at + 2 <= j
      invariant forall d :: at + 1 < d < j && d < |s| - 1 ==> s[d] != '.'
      decreases |s| - j
    {
      if s[j] == '.' {
        assert SplitsAt(s, at, j);
        ok := true;
        return;
      }
      j := j + 1;
    }
  }
}

=== FILE: login_api.dfy ===
/** The login handler: a plain-text credential match against the user list,
    answered with a fake token and the user without password. */
module LoginApi {
  import opened Common
  import opened Decimal
  import opened UsersApi

  /** `{ success, user?, message? }`, the status code, and the value set in the
      `auth-token` cookie (`None` when the cookie is left alone). */
  datatype LoginResponse = LoginResponse(
    status: int, success: bool, user: Option<PublicUser>, message: Option<string>, cookie: Option<string>)

  const MissingCredentialsMessage: string := "이메일과 비밀번호를 입력해주세요."
  const BadCredentialsMessage: string := "이메일 또는 비밀번호가 올바르지 않습니다."
  const TokenPrefix: string := "fake-jwt-token-"

  /** `fake-jwt-token-${id}`: the prefix, then the id in decimal, which reads back as the id. */
  function Token(id: int): (t: string)
    ensures |t| > |TokenPrefix| && t[..|TokenPrefix|] == TokenPrefix
    ensures var d := t[|TokenPrefix|..];
      (AllDigits(d) || (d[0] == '-' && |d| > 1 && AllDigits(d[1..]))) && ParseInt(d) == id
  {
    var digits := IntToString(id);
    IntToStringRoundTrip(id);
    assert (TokenPrefix + digits)[|TokenPrefix|..] == digits;
    TokenPrefix + digits
  }

  /** A token names exactly one user id. */
  lemma TokenIdentifiesUser(i: int, j: int)
    requires Token(i) == Token(j)
    ensures i == j
  {
    assert IntToString(i) == Token(i)[|TokenPrefix|..];
    assert IntToString(j) == Token(j)[|TokenPrefix|..];
    IntToStringInjective(i, j);
  }

  /** The first user whose e-mail and password both equal the request's, exactly. */
  function Authenticate(users: seq<User>, email: string, password: string): (r: Option<User>)
    ensures r.Some? <==> exists i :: 0 <= i < |users| && users[i].email == email && users[i].password == password
    ensures r.Some? ==> r.value in users && r.value.email == email && r.value.password == password
    ensures r.Some? ==> exists i :: (0 <= i < |users| && users[i] == r.value
      && forall k :: 0 <= k < i ==> !(users[k].email == email && users[k].password == password))
  {
    FindFirst(users, (u: User) => u.email == email && u.password == password)
  }

  /** POST: 400 when the e-mail or the password is missing, 200 with the token cookie
      when a user matches both, 401 with a generic message otherwise. The user list is
      only read. */
  function Login(users: seq<User>, email: Option<string>, password: Option<string>): (r: LoginResponse)
    ensures !Truthy(email) || !Truthy(password) ==>
      r == LoginResponse(400, false, None, Some(MissingCredentialsMessage), None)
    ensures r.success <==>
      Truthy(email) && Truthy(password)
      && exists i :: 0 <= i < |users| && users[i].email == email.value && users[i].password == password.value
    ensures r.success ==>
      && r.status == 200 && r.message.None?
      && exists i :: (
        && 0 <= i < |users|
        && users[i].email == email.value && users[i].password == password.value
        && r.user == Some(Public(users[i])) && r.cookie == Some(Token(users[i].id))
        && forall k :: 0 <= k < i ==> !(users[k].email == email.value && users[k].password == password.value))
    ensures Truthy(email) && Truthy(password) && !r.success ==>
      r == LoginResponse(401, false, None, Some(BadCredentialsMessage), None)
  {
    if !Truthy(email) || !Truthy(password) then
      LoginResponse(400, false, None, Some(MissingCredentialsMessage), None)
    else
      match Authenticate(users, email.value, password.value)
      case Some(u) => LoginResponse(200, true, Some(Public(u)), None, Some(Token(u.id)))
      case None => LoginResponse(401, false, None, Some(BadCredentialsMessage), None)
  }

  /** With e-mails unique, a registered user who gives their own e-mail and password is
      logged in as themselves, and the cookie carries their id. */
  lemma OwnCredentialsLogIn(users: seq<User>, i: int)
    requires UniqueEmails(users)
    requires 0 <= i < |users| && users[i].email != "" && users[i].password != ""
    ensures var r := Login(users, Some(users[i].email), Some(users[i].password));
      r.success && r.user == Some(Public(users[i])) && r.cookie == Some(Token(users[i].id))
  {
  }

  /** E-mails are compared exactly: with only "a@b.c" registered, "A@b.c" is refused. */
  lemma EmailIsCaseSensitive(u: User)
    requires u.email == "a@b.c" && u.password == "pw"
    ensures Login([u], Some("A@b.c"), Some("pw")).status == 401
  {
    assert "A@b.c" != "a@b.c" by { assert "A@b.c"[0] != "a@b.c"[0]; }
  }
}

=== FILE: login_page.dfy ===
/** The login page: the checks made before calling the login action, the
    remembered e-mail kept in local storage, and the message shown on failure. */
module LoginPage {
  import opened Common
  import EmailPattern

  /** What the login action answers. */
  datatype AuthResult = AuthResult(success: bool, message: Option<string>)

  /** The page after a login attempt: the error shown, whether the login action was
      called, the e-mail kept under "rememberedEmail", and whether it moved to "/". */
  datatype LoginOutcome = LoginOutcome(error: string, called: bool, remembered: Option<string>, navigated: bool)

  const BadEmailMessage: string := "유효한 이메일 주소를 입력해주세요."
  const EmptyPasswordMessage: string := "비밀번호를 입력해주세요."
  const FailedMessage: string := "로그인에 실패했습니다."

  /** `handleLogin`: the e-mail pattern first, then a non-empty password; only then is
      `login` called. On success the e-mail is remembered or forgotten as the check box
      says; on failure the action's message, or a default, is shown. */
  function HandleLogin(
    email: string, password: string, rememberMe: bool, remembered: Option<string>,
    login: (string, string) -> AuthResult): (r: LoginOutcome)
    ensures !EmailPattern.Matches(email) ==> r == LoginOutcome(BadEmailMessage, false, remembered, false)
    ensures EmailPattern.Matches(email) && password == "" ==> r == LoginOutcome(EmptyPasswordMessage, false, remembered, false)
    ensures r.called <==> EmailPattern.Matches(email) && password != ""
    ensures r.called && login(email, password).success ==>
      r.error == "" && r.navigated && r.remembered == (if rememberMe then Some(email) else None)
    ensures r.called && !login(email, password).success ==>
      r.error == OrDefault(login(email, password).message, FailedMessage) && r.remembered == remembered && !r.navigated
  {
    if !EmailPattern.Matches(email) then LoginOutcome(BadEmailMessage, false, remembered, false)
    else if password == "" then LoginOutcome(EmptyPasswordMessage, false, remembered, false)
    else
      var result := login(email, password);
      if result.success then LoginOutcome("", true, if rememberMe then Some(email) else None, true)
      else LoginOutcome(OrDefault(result.message, FailedMessage), true, remembered, false)
  }

  /** Only e-mails of the accepted shape are ever remembered: if the stored one had the
      shape before an attempt, whatever is stored afterwards has it too. */
  lemma RememberedEmailKeepsShape(
    email: string, password: string, rememberMe: bool, remembered: Option<string>,
    login: (string, string) -> AuthResult)
    requires remembered.Some? ==> EmailPattern.Matches(remembered.value)
    ensures var r := HandleLogin(email, password, rememberMe, remembered, login);
      r.remembered.Some? ==> EmailPattern.Matches(r.remembered.value)
  {
  }

  /** `login` never sees an e-mail outside the pattern or an empty password. */
  lemma CalledOnlyWithWellFormedInput(
    email: string, password: string, rememberMe: bool, remembered: Option<string>,
    login: (string, string) -> AuthResult)
    requires HandleLogin(email, password, rememberMe, remembered, login).called
    ensures EmailPattern.Matches(email) && |email| >= 5 && password != ""
  {
    var at, dot :| 0 < at < |email| && at + 1 < dot < |email| - 1 && EmailPattern.SplitsAt(email, at, dot);
  }
}

=== FILE: order_page.dfy ===
/** The order page: the quantity stepper, the total price and the form check. */
module OrderPage {
  import opened Common

  /** The ticket being bought, as far as the totals use it. */
  datatype OrderTicket = OrderTicket(title: string, artist: string, price: int)

  datatype OrderForm = OrderForm(name: string, phone: string, email: string, agreedToTerms: bool)

  /** The quantity the page starts with. */
  const InitialQuantity: int := 1

  /** `handleQuantityChange`: `Math.max(1, quantity + change)`. */
  function ChangeQuantity(quantity: int, change: int): (r: int)
    ensures r >= 1
    ensures quantity + change >= 1 ==> r == quantity + change
    ensures quantity + change < 1 ==> r == 1
  {
    if quantity + change >= 1 then quantity + change else 1
  }

  /** The quantity after a run of clicks on the stepper, starting from the initial one. */
  function QuantityAfter(changes: seq<int>): (q: int)
    ensures q >= 1
  {
    if |changes| == 0 then InitialQuantity
    else ChangeQuantity(QuantityAfter(changes[..|changes| - 1]), changes[|changes| - 1])
  }

  /** The stepper's buttons pass +1 and -1: the quantity never exceeds one plus the clicks. */
  lemma {:induction false} QuantityBounded(changes: seq<int>)
    requires forall i :: 0 <= i < |changes| ==> changes[i] == 1 || changes[i] == -1
    ensures 1 <= QuantityAfter(changes) <= 1 + |changes|
  {
    if |changes| > 0 {
      QuantityBounded(changes[..|changes| - 1]);
    }
  }

  /** n clicks on "+" give quantity n + 1. */
  lemma {:induction false} IncrementsCount(n: nat)
    ensures QuantityAfter(seq(n, i => 1)) == n + 1
  {
    if n > 0 {
      IncrementsCount(n - 1);
      assert seq(n, i => 1)[..n - 1] == seq(n - 1, i => 1);
    }
  }

  /** "-" at quantity 1 keeps 1; "+" adds one. */
  lemma StepperAtOne(q: int)
    requires q >= 1
    ensures ChangeQuantity(1, -1) == 1 && ChangeQuantity(q, 1) == q + 1
  {
  }

  /** `totalPrice`: the unit price times the quantity, or 0 when the ticket is unknown. */
  function TotalPrice(ticket: Option<OrderTicket>, quantity: int): (t: int)
    ensures ticket.None? ==> t == 0
    ensures ticket.Some? && quantity == 1 ==> t == ticket.value.price
    ensures ticket.Some? && quantity >= 1 && ticket.value.price >= 0 ==> t >= ticket.value.price
  {
    if ticket.Some? then ticket.value.price * quantity else 0
  }

  /** The unit price added up `n` times: the bill as a cashier would ring it up. */
  function RungUp(price: int, n: nat): int {
    if n == 0 then 0 else RungUp(price, n - 1) + price
  }

  /** The total for `n` tickets is the unit price rung up `n` times. */
  lemma {:induction false} TotalPriceIsRungUp(ticket: OrderTicket, n: nat)
    ensures TotalPrice(Some(ticket), n) == RungUp(ticket.price, n)
  {
    if n > 0 {
      TotalPriceIsRungUp(ticket, n - 1);
      assert ticket.price * n == ticket.price * (n - 1) + ticket.price;
    }
  }

  /** After `n` clicks on "+" the page shows the unit price rung up `n + 1` times. */
  lemma TotalAfterIncrements(ticket: OrderTicket, n: nat)
    ensures TotalPrice(Some(ticket), QuantityAfter(seq(n, i => 1))) == RungUp(ticket.price, n + 1)
  {
    IncrementsCount(n);
    TotalPriceIsRungUp(ticket, n + 1);
  }

  /** One more ticket costs one more unit price. */
  lemma TotalPriceStep(ticket: OrderTicket, quantity: int)
    requires quantity >= 1
    ensures TotalPrice(Some(ticket), ChangeQuantity(quantity, 1)) == TotalPrice(Some(ticket), quantity) + ticket.price
  {
  }

  /** `name && phone && email && agreedToTerms`. */
  predicate FormValid(f: OrderForm) {
    f.name != "" && f.phone != "" && f.email != "" && f.agreedToTerms
  }

  /** The pay button is disabled by an empty required field or an unchecked agreement,
      each on its own. */
  lemma EachFieldRequired(f: OrderForm)
    ensures !FormValid(f.(name := "")) && !FormValid(f.(phone := "")) && !FormValid(f.(email := ""))
    ensures !FormValid(f.(agreedToTerms := false))
  {
  }

  /** Filling the three fields and ticking the agreement enables the pay button. */
  lemma FilledFormEnabled(name: string, phone: string, email: string)
    requires name != "" && phone != "" && email != ""
    ensures FormValid(OrderForm(name, phone, email, true))
  {
  }
}

=== FILE: orders_api.dfy ===
/** The legacy orders handler: an in-memory array of orders with
    GET (list), POST (append), PUT (merge-update) and DELETE (splice). */
module OrdersApi {
  import opened Common

  datatype Order = Order(id: int, userId: int, ticketId: int, quantity: int, totalPrice: int, status: string)

  /** A PUT body: `id` selects the order, every other present field overwrites. */
  datatype OrderPatch = OrderPatch(
    id: Option<int>, userId: Option<int>, ticketId: Option<int>,
    quantity: Option<int>, totalPrice: Option<int>, status: Option<string>)

  datatype Body = Listing(orders: seq<Order>) | One(order: Order) | Deleted | NotFound

  /** Status code, JSON body and the array as it stands after the request. */
  datatype Response = Response(status: int, body: Body, orders: seq<Order>)

  /** `findIndex` by strict id equality: the first matching index, or -1. */
  function FindIndex(orders: seq<Order>, id: Option<int>): (k: int)
    ensures -1 <= k < |orders|
    ensures k == -1 <==> (id.None? || forall i :: 0 <= i < |orders| ==> orders[i].id != id.value)
    ensures k >= 0 ==> id.Some? && orders[k].id == id.value && forall i :: 0 <= i < k ==> orders[i].id != id.value
    decreases |orders|
  {
    if id.None? || |orders| == 0 then -1
    else if orders[0].id == id.value then 0
    else
      var k := FindIndex(orders[1..], id);
      if k == -1 then -1 else k + 1
  }

  /** `{ ...prior, ...patch }`: present fields replace the old ones. */
  function Overlay(prior: Order, p: OrderPatch): Order {
    Order(
      if p.id.Some? then p.id.value else prior.id,
      if p.userId.Some? then p.userId.value else prior.userId,
      if p.ticketId.Some? then p.ticketId.value else prior.ticketId,
      if p.quantity.Some? then p.quantity.value else prior.quantity,
      if p.totalPrice.Some? then p.totalPrice.value else prior.totalPrice,
      if p.status.Some? then p.status.value else prior.status)
  }

  /** GET: the array as it is. */
  function Get(orders: seq<Order>): (r: Response)
    ensures r.status == 200 && r.orders == orders && r.body == Listing(orders)
  {
    Response(200, Listing(orders), orders)
  }

  /** POST: the request body, with its id replaced by the array length plus one, is appended. */
  function Post(orders: seq<Order>, request: Order): (r: Response)
    ensures r.status == 201
    ensures |r.orders| == |orders| + 1
    ensures r.orders[..|orders|] == orders
    ensures r.orders[|orders|] == request.(id := |orders| + 1)
    ensures r.body == One(r.orders[|orders|])
  {
    var created := request.(id := |orders| + 1);
    Response(201, One(created), orders + [created])
  }

  /** PUT: the first order with the body's id is overlaid with the body; 404 if none. */
  function Put(orders: seq<Order>, patch: OrderPatch): (r: Response)
    ensures var k := FindIndex(orders, patch.id);
      && (k == -1 ==> r == Response(404, NotFound, orders))
      && (k >= 0 ==>
        && r.status == 200
        && |r.orders| == |orders|
        && r.orders[k] == Overlay(orders[k], patch)
        && r.orders[k].id == orders[k].id
        && r.body == One(r.orders[k])
        && forall i :: 0 <= i < |orders| && i != k ==> r.orders[i] == orders[i])
  {
    var k := FindIndex(orders, patch.id);
    if k == -1 then Response(404, NotFound, orders)
    else
      var updated := Overlay(orders[k], patch);
      Response(200, One(updated), orders[k := updated])
  }

  /** DELETE: the first order with the given id is spliced out; 404 if none. */
  function Delete(orders: seq<Order>, id: Option<int>): (r: Response)
    ensures var k := FindIndex(orders, id);
      && (k == -1 ==> r == Response(404, NotFound, orders))
      && (k >= 0 ==>
        && r.status == 200 && r.body == Deleted
        && |r.orders| == |orders| - 1
        && r.orders == orders[..k] + orders[k + 1..]
        && multiset(r.orders) == multiset(orders) - multiset{orders[k]})
  {
    var k := FindIndex(orders, id);
    if k == -1 then Response(404, NotFound, orders)
    else
      RemoveAtMultiset(orders, k);
      Response(200, Deleted, orders[..k] + orders[k + 1..])
  }

  /** Ids are not unique: when ids are 1..n and an order other than the last is
      deleted, the next POST gets id n again, which the last order already holds. */
  lemma PostAfterDeleteDuplicatesId(orders: seq<Order>, gone: int, request: Order)
    requires forall i :: 0 <= i < |orders| ==> orders[i].id == i + 1
    requires 1 <= gone < |orders|
    ensures var after := Post(Delete(orders, Some(gone)).orders, request).orders;
      |after| == |orders| && after[|orders| - 2].id == after[|orders| - 1].id == |orders|
  {
    var k := FindIndex(orders, Some(gone));
    assert orders[gone - 1].id == gone;
    assert k == gone - 1;
    var remaining := Delete(orders, Some(gone)).orders;
    assert remaining[|orders| - 2] == orders[|orders| - 1];
  }
}

=== FILE: popular_tickets.dfy ===
/** The popular-tickets ranking: an in-memory list whose traffic counters are
    bumped by a random amount on every GET, then re-sorted by traffic and re-ranked. */
module PopularTickets {
  import opened Common
  import opened Sorting

  datatype PopularTicket = PopularTicket(id: int, rank: int, artist: string, date: string, venue: string, traffic: int)

  /** `Math.floor(Math.random() * 100)` lies in 0..99. */
  const MaxBump: int := 99

  /** The entry with its rank erased: what a GET must carry over apart from traffic. */
  function Unranked(t: PopularTicket): PopularTicket {
    t.(rank := 0)
  }

  /** Traffic order used by the comparator `b.traffic - a.traffic`: larger traffic first. */
  function ByTrafficDesc(): (le: (PopularTicket, PopularTicket) -> bool)
    ensures TotalPreorder(le)
  {
    (a: PopularTicket, b: PopularTicket) => a.traffic >= b.traffic
  }

  /** Adds the i-th random amount to the i-th entry's traffic. */
  function Bump(list: seq<PopularTicket>, bumps: seq<int>): (r: seq<PopularTicket>)
    requires |bumps| == |list|
    ensures |r| == |list|
    ensures forall i :: 0 <= i < |list| ==> r[i] == list[i].(traffic := list[i].traffic + bumps[i])
  {
    seq(|list|, i requires 0 <= i < |list| => list[i].(traffic := list[i].traffic + bumps[i]))
  }

  /** Sets each entry's rank to its position plus one. */
  function Rerank(list: seq<PopularTicket>): (r: seq<PopularTicket>)
    ensures |r| == |list|
    ensures forall i :: 0 <= i < |list| ==> r[i] == list[i].(rank := i + 1)
  {
    seq(|list|, i requires 0 <= i < |list| => list[i].(rank := i + 1))
  }

  /** `GET`: the stored list after one request; it is also the response body.
      `bumps` are the values `Math.random` produced, one per entry in list order. */
  function Get(list: seq<PopularTicket>, bumps: seq<int>): (r: seq<PopularTicket>)
    requires |bumps| == |list|
    requires forall i :: 0 <= i < |bumps| ==> 0 <= bumps[i] <= MaxBump
    ensures |r| == |list|
    ensures forall i :: 0 <= i < |r| ==> r[i].rank == i + 1
    ensures forall i, j :: 0 <= i < j < |r| ==> r[i].traffic >= r[j].traffic
    ensures forall i :: 0 <= i < |r| ==>
      exists k :: 0 <= k < |list| && Unranked(r[i]) == Unranked(list[k].(traffic := r[i].traffic))
        && list[k].traffic <= r[i].traffic <= list[k].traffic + MaxBump
  {
    var bumped := Bump(list, bumps);
    var sorted := Sort(bumped, ByTrafficDesc());
    var r := Rerank(sorted);
    assert forall i :: 0 <= i < |r| ==> exists k :: 0 <= k < |list| && sorted[i] == bumped[k] by {
      forall i | 0 <= i < |r| ensures exists k :: 0 <= k < |list| && sorted[i] == bumped[k] {
        assert sorted[i] in multiset(sorted);
        assert sorted[i] in bumped;
      }
    }
    r
  }

  function Ids(list: seq<PopularTicket>): seq<int> {
    MapSeq(list, (t: PopularTicket) => t.id)
  }

  /** A GET permutes the entries: the multiset of ids is unchanged. */
  lemma GetPermutesIds(list: seq<PopularTicket>, bumps: seq<int>)
    requires |bumps| == |list|
    requires forall i :: 0 <= i < |bumps| ==> 0 <= bumps[i] <= MaxBump
    ensures multiset(Ids(Get(list, bumps))) == multiset(Ids(list))
  {
    var bumped := Bump(list, bumps);
    var sorted := Sort(bumped, ByTrafficDesc());
    assert Ids(Get(list, bumps)) == Ids(sorted);
    assert Ids(bumped) == Ids(list);
    MapSeqRespectsMultiset(sorted, bumped, (t: PopularTicket) => t.id);
  }
}

=== FILE: price_codec.dfy ===
/** The text form of a concert's price object, e.g. `{"VIP":150000,"R":120000}`.
    The concert table keeps prices as text: the handlers write
    `JSON.stringify(price)` and answer with `JSON.parse` of the stored text. This
    module gives that pair a concrete shape, a price object as a list of
    grade/amount entries in key order. The writer emits the compact form; the
    reader also accepts JSON white space around every token, as in the seeded
    rows. Reading back what was written returns the same object. */
module PriceCodec {
  import opened Common
  import opened Decimal

  /** One key of the price object: a seat grade and its price. */
  datatype PriceEntry = PriceEntry(grade: string, amount: nat)

  /** A backslash before every '"' and '\', so that the key can sit between quotes. */
  function EscapeKey(k: string): string {
    if |k| == 0 then ""
    else (if k[0] == '"' || k[0] == '\\' then ['\\', k[0]] else [k[0]]) + EscapeKey(k[1..])
  }

  function EncodeEntry(e: PriceEntry): string {
    "\"" + EscapeKey(e.grade) + "\":" + NatToString(e.amount)
  }

  function EncodeEntries(p: seq<PriceEntry>): string
    requires |p| > 0
  {
    if |p| == 1 then EncodeEntry(p[0]) else EncodeEntry(p[0]) + "," + EncodeEntries(p[1..])
  }

  /** `JSON.stringify` of a price object. */
  function Encode(p: seq<PriceEntry>): string {
    if |p| == 0 then "{}" else "{" + EncodeEntries(p) + "}"
  }

  /** The four characters JSON allows between tokens. */
  predicate IsJsonSpace(c: char) {
    c == ' ' || c == '\t' || c == '\n' || c == '\r'
  }

  /** Drops the white space in front of the next token. */
  function SkipSpace(s: string): (r: string)
    ensures |r| <= |s|
  {
    if |s| > 0 && IsJsonSpace(s[0]) then SkipSpace(s[1..]) else s
  }

  /** What `SkipSpace` drops is white space, and what it keeps starts with a token. */
  lemma {:induction false} SkipSpaceDropsSpace(s: string)
    ensures var r := SkipSpace(s);
      && r == s[|s| - |r|..]
      && (forall i :: 0 <= i < |s| - |r| ==> IsJsonSpace(s[i]))
      && (|r| == 0 || !IsJsonSpace(r[0]))
  {
    if |s| > 0 && IsJsonSpace(s[0]) {
      SkipSpaceDropsSpace(s[1..]);
      assert forall i :: 1 <= i < |s| ==> s[i] == s[1..][i - 1];
    }
  }

  /** Reads a key up to its closing unescaped quote; returns the key and what follows the quote. */
  function ParseKey(s: string): (r: Option<(string, string)>)
    ensures r.Some? ==> |r.value.1| < |s|
  {
    if |s| == 0 then None
    else if s[0] == '"' then Some(("", s[1..]))
    else if s[0] == '\\' then
      if |s| < 2 then None
      else match ParseKey(s[2..])
        case None => None
        case Some((k, rest)) => Some(([s[1]] + k, rest))
    else match ParseKey(s[1..])
      case None => None
      case Some((k, rest)) => Some(([s[0]] + k, rest))
  }

  /** Reads a non-empty run of digits as a number. */
  function ParseNat(s: string): (r: Option<(nat, string)>)
    ensures r.Some? ==> |r.value.1| < |s|
  {
    var d := DigitPrefix(s);
    if |d| == 0 then None else Some((DigitsValue(d), s[|d|..]))
  }

  /** Reads `"key" : amount`, with white space allowed before each of the three tokens. */
  function ParseEntry(s: string): (r: Option<(PriceEntry, string)>)
    ensures r.Some? ==> |r.value.1| < |s|
  {
    var t := SkipSpace(s);
    if |t| == 0 || t[0] != '"' then None
    else match ParseKey(t[1..])
      case None => None
      case Some((k, rest)) => ParseValue(k, rest)
  }

  /** Reads `: amount` after the key `k`. */
  function ParseValue(k: string, s: string): (r: Option<(PriceEntry, string)>)
    ensures r.Some? ==> |r.value.1| < |s|
  {
    var u := SkipSpace(s);
    if |u| == 0 || u[0] != ':' then None
    else match ParseNat(SkipSpace(u[1..]))
      case None => None
      case Some((n, rest)) => Some((PriceEntry(k, n), rest))
  }

  /** Reads entries separated by ',' up to and including the closing '}'. */
  function ParseEntries(s: string): (r: Option<(seq<PriceEntry>, string)>)
    decreases |s|
  {
    match ParseEntry(s)
    case None => None
    case Some((e, rest)) =>
      var t := SkipSpace(rest);
      if |t| == 0 then None
      else if t[0] == '}' then Some(([e], t[1..]))
      else if t[0] == ',' then
        match ParseEntries(t[1..])
        case None => None
        case Some((es, rest')) => Some(([e] + es, rest'))
      else None
  }

  /** `JSON.parse` of a stored price text; `None` where the parse would throw. */
  function Decode(s: string): Option<seq<PriceEntry>> {
    var t := SkipSpace(s);
    if |t| == 0 || t[0] != '{' then None
    else
      var u := SkipSpace(t[1..]);
      if |u| > 0 && u[0] == '}' then
        if SkipSpace(u[1..]) == "" then Some([]) else None
      else match ParseEntries(u)
        case Some((es, rest)) => if SkipSpace(rest) == "" then Some(es) else None
        case None => None
  }

  /** Text that starts with a token is left as it is. */
  lemma SkipNoSpace(s: string)
    requires |s| == 0 || !IsJsonSpace(s[0])
    ensures SkipSpace(s) == s
  {
  }

  lemma {:induction false} ParseEscapedKey(k: string, rest: string)
    ensures ParseKey(EscapeKey(k) + "\"" + rest) == Some((k, rest))
  {
    if |k| == 0 {
      assert EscapeKey(k) + "\"" + rest == "\"" + rest;
    } else {
      ParseEscapedKey(k[1..], rest);
      var head := if k[0] == '"' || k[0] == '\\' then ['\\', k[0]] else [k[0]];
      assert EscapeKey(k) + "\"" + rest == head + (EscapeKey(k[1..]) + "\"" + rest);
      assert [k[0]] + k[1..] == k;
    }
  }

  lemma ParseNatToString(n: nat, rest: string)
    requires |rest| == 0 || !IsDigit(rest[0])
    ensures ParseNat(NatToString(n) + rest) == Some((n, rest))
  {
    var digits := NatToString(n);
    DigitPrefixOfDigits(digits, rest);
    DigitsValueOfNatToString(n);
    assert (digits + rest)[|digits|..] == rest;
  }

  lemma ParseEncodedEntry(e: PriceEntry, rest: string)
    requires |rest| == 0 || !IsDigit(rest[0])
    ensures ParseEntry(EncodeEntry(e) + rest) == Some((e, rest))
  {
    var digits := NatToString(e.amount);
    var b := ":" + (digits + rest);
    var a := EscapeKey(e.grade) + "\"" + b;
    var s := EncodeEntry(e) + rest;
    assert s == "\"" + a;
    assert s[1..] == a;
    SkipNoSpace(s);
    ParseEscapedKey(e.grade, b);
    ParseEncodedValue(e, rest);
  }

  lemma ParseEncodedValue(e: PriceEntry, rest: string)
    requires |rest| == 0 || !IsDigit(rest[0])
    ensures ParseValue(e.grade, ":" + (NatToString(e.amount) + rest)) == Some((e, rest))
  {
    var digits := NatToString(e.amount);
    var b := ":" + (digits + rest);
    SkipNoSpace(b);
    assert b[1..] == digits + rest;
    assert IsDigit(digits[0]);
    SkipNoSpace(b[1..]);
    ParseNatToString(e.amount, rest);
  }

  /** `ParseEntries` on an entry followed by the closing brace. */
  lemma ParseEntriesLast(s: string, e: PriceEntry, rest: string)
    requires ParseEntry(s) == Some((e, "}" + rest))
    ensures ParseEntries(s) == Some(([e], rest))
  {
    SkipNoSpace("}" + rest);
    assert ("}" + rest)[1..] == rest;
  }

  /** The same when the closing brace ends the text. */
  lemma ParseEntriesClosed(s: string, e: PriceEntry)
    requires ParseEntry(s) == Some((e, "}"))
    ensures ParseEntries(s) == Some(([e], ""))
  {
    SkipNoSpace("}");
    assert "}"[1..] == "";
  }

  /** `ParseEntries` on an entry followed by a comma and more entries. */
  lemma ParseEntriesMore(s: string, e: PriceEntry, tail: string, es: seq<PriceEntry>, rest: string)
    requires ParseEntry(s) == Some((e, "," + tail))
    requires ParseEntries(tail) == Some((es, rest))
    ensures ParseEntries(s) == Some(([e] + es, rest))
  {
    SkipNoSpace("," + tail);
    assert ("," + tail)[1..] == tail;
  }

  /** The last entry of an encoded list is read with the closing brace. */
  lemma ParseEncodedLast(p: seq<PriceEntry>, rest: string)
    requires |p| == 1
    ensures ParseEntries(EncodeEntries(p) + "}" + rest) == Some((p, rest))
  {
    ParseEncodedEntry(p[0], "}" + rest);
    assert EncodeEntries(p) + "}" + rest == EncodeEntry(p[0]) + ("}" + rest);
    ParseEntriesLast(EncodeEntry(p[0]) + ("}" + rest), p[0], rest);
    assert p == [p[0]];
  }

  lemma RegroupEntries(a: string, b: string, rest: string)
    ensures a + "," + b + "}" + rest == a + ("," + (b + "}" + rest))
  {
    var c := "}" + rest;
    assert a + "," + b + "}" + rest == (a + "," + b) + c;
    assert (a + "," + b) + c == a + ("," + (b + c));
    assert b + "}" + rest == b + c;
  }

  /** An encoded list of more than one entry splits at its first comma. */
  lemma SplitEncodedEntries(p: seq<PriceEntry>, rest: string)
    requires |p| > 1
    ensures EncodeEntries(p) + "}" + rest
      == EncodeEntry(p[0]) + ("," + (EncodeEntries(p[1..]) + "}" + rest))
  {
    RegroupEntries(EncodeEntry(p[0]), EncodeEntries(p[1..]), rest);
  }

  /** An encoded entry followed by a comma is read, then the rest of the list. */
  lemma ParseEncodedMore(p: seq<PriceEntry>, rest: string)
    requires |p| > 1
    requires ParseEntries(EncodeEntries(p[1..]) + "}" + rest) == Some((p[1..], rest))
    ensures ParseEntries(EncodeEntries(p) + "}" + rest) == Some((p, rest))
  {
    SplitEncodedEntries(p, rest);
    ParseEncodedHead(p[0], EncodeEntries(p[1..]) + "}" + rest, p[1..], rest);
    assert [p[0]] + p[1..] == p;
  }

  lemma ParseEncodedHead(e: PriceEntry, tail: string, es: seq<PriceEntry>, rest: string)
    requires ParseEntries(tail) == Some((es, rest))
    ensures ParseEntries(EncodeEntry(e) + ("," + tail)) == Some(([e] + es, rest))
  {
    ParseEncodedEntry(e, "," + tail);
    ParseEntriesMore(EncodeEntry(e) + ("," + tail), e, tail, es, rest);
  }

  lemma {:induction false} ParseEncodedEntries(p: seq<PriceEntry>, rest: string)
    requires |p| > 0
    ensures ParseEntries(EncodeEntries(p) + "}" + rest) == Some((p, rest))
    decreases |p|
  {
    if |p| == 1 {
      ParseEncodedLast(p, rest);
    } else {
      ParseEncodedEntries(p[1..], rest);
      ParseEncodedMore(p, rest);
    }
  }

  /** White space in front of a token is dropped. */
  lemma {:induction false} SkipLeadingSpace(lead: string, s: string)
    requires forall i :: 0 <= i < |lead| ==> IsJsonSpace(lead[i])
    requires |s| == 0 || !IsJsonSpace(s[0])
    ensures SkipSpace(lead + s) == s
  {
    if |lead| > 0 {
      assert (lead + s)[1..] == lead[1..] + s;
      SkipLeadingSpace(lead[1..], s);
    }
  }

  /** A key without quotes or backslashes is its own escaped form. */
  lemma {:induction false} EscapePlainKey(k: string)
    requires forall i :: 0 <= i < |k| ==> k[i] != '"' && k[i] != '\\'
    ensures EscapeKey(k) == k
  {
    if |k| > 0 {
      EscapePlainKey(k[1..]);
      assert k == [k[0]] + k[1..];
    }
  }

  /** An entry in the hand-written style `"key": amount`, with white space before the
      key, is read like the compact one; the value step is `ParseSpacedValue`. */
  lemma ParseSpacedEntry(lead: string, k: string, after: string)
    requires forall i :: 0 <= i < |lead| ==> IsJsonSpace(lead[i])
    requires forall i :: 0 <= i < |k| ==> k[i] != '"' && k[i] != '\\'
    ensures ParseEntry(lead + ("\"" + (k + ("\"" + after)))) == ParseValue(k, after)
  {
    var t := "\"" + (k + ("\"" + after));
    SkipLeadingSpace(lead, t);
    EscapePlainKey(k);
    assert t[1..] == EscapeKey(k) + "\"" + after;
    ParseEscapedKey(k, after);
  }

  /** The same without white space before the key. */
  lemma ParsePlainEntry(k: string, after: string)
    requires forall i :: 0 <= i < |k| ==> k[i] != '"' && k[i] != '\\'
    ensures ParseEntry("\"" + (k + ("\"" + after))) == ParseValue(k, after)
  {
    var t := "\"" + (k + ("\"" + after));
    assert "" + t == t;
    ParseSpacedEntry("", k, after);
  }

  lemma ParseNatDigits(digits: string, rest: string)
    requires |digits| > 0 && AllDigits(digits)
    requires |rest| == 0 || !IsDigit(rest[0])
    ensures ParseNat(digits + rest) == Some((DigitsValue(digits), rest))
  {
    DigitPrefixOfDigits(digits, rest);
    assert (digits + rest)[|digits|..] == rest;
  }

  /** `: amount` with white space after the colon. */
  lemma ParseSpacedValue(k: string, gap: string, digits: string, rest: string)
    requires forall i :: 0 <= i < |gap| ==> IsJsonSpace(gap[i])
    requires |digits| > 0 && AllDigits(digits)
    requires |rest| == 0 || !IsDigit(rest[0])
    ensures ParseValue(k, ":" + (gap + (digits + rest))) == Some((PriceEntry(k, DigitsValue(digits)), rest))
  {
    var after := ":" + (gap + (digits + rest));
    SkipNoSpace(after);
    assert after[1..] == gap + (digits + rest);
    assert IsDigit((digits + rest)[0]);
    SkipLeadingSpace(gap, digits + rest);
    ParseNatDigits(digits, rest);
  }

  /** A hand-written entry `"key": amount` followed by anything but a digit. */
  lemma ParseSpacedWhole(lead: string, k: string, digits: string, rest: string)
    requires forall i :: 0 <= i < |lead| ==> IsJsonSpace(lead[i])
    requires forall i :: 0 <= i < |k| ==> k[i] != '"' && k[i] != '\\'
    requires |digits| > 0 && AllDigits(digits)
    requires |rest| == 0 || !IsDigit(rest[0])
    ensures ParseEntry(lead + ("\"" + (k + ("\"" + (":" + (" " + (digits + rest)))))))
      == Some((PriceEntry(k, DigitsValue(digits)), rest))
  {
    ParseSpacedValue(k, " ", digits, rest);
    ParseSpacedEntry(lead, k, ":" + (" " + (digits + rest)));
  }

  /** A hand-written last entry, `"key": amount}`. */
  lemma ParseSpacedLast(lead: string, k: string, digits: string)
    requires forall i :: 0 <= i < |lead| ==> IsJsonSpace(lead[i])
    requires forall i :: 0 <= i < |k| ==> k[i] != '"' && k[i] != '\\'
    requires |digits| > 0 && AllDigits(digits)
    ensures ParseEntries(lead + ("\"" + (k + ("\"" + (":" + (" " + (digits + "}")))))))
      == Some(([PriceEntry(k, DigitsValue(digits))], ""))
  {
    var s := lead + ("\"" + (k + ("\"" + (":" + (" " + (digits + "}"))))));
    ParseSpacedWhole(lead, k, digits, "}");
    ParseEntriesClosed(s, PriceEntry(k, DigitsValue(digits)));
  }

  /** A hand-written entry followed by `,` and more entries. */
  lemma ParseSpacedMore(lead: string, k: string, digits: string, tail: string, es: seq<PriceEntry>)
    requires forall i :: 0 <= i < |lead| ==> IsJsonSpace(lead[i])
    requires forall i :: 0 <= i < |k| ==> k[i] != '"' && k[i] != '\\'
    requires |digits| > 0 && AllDigits(digits)
    requires ParseEntries(tail) == Some((es, ""))
    ensures ParseEntries(lead + ("\"" + (k + ("\"" + (":" + (" " + (digits + ("," + tail))))))))
      == Some(([PriceEntry(k, DigitsValue(digits))] + es, ""))
  {
    var s := lead + ("\"" + (k + ("\"" + (":" + (" " + (digits + ("," + tail)))))));
    ParseSpacedWhole(lead, k, digits, "," + tail);
    ParseEntriesMore(s, PriceEntry(k, DigitsValue(digits)), tail, es, "");
  }

  /** Appending `z` zeros multiplies the value by ten `z` times. */
  lemma {:induction false} DigitsOfRound(d: string, z: nat)
    requires AllDigits(d)
    ensures AllDigits(d + seq(z, _ => '0'))
    ensures DigitsValue(d + seq(z, _ => '0')) == DigitsValue(d) * Pow10(z)
  {
    var s := d + seq(z, _ => '0');
    if z == 0 {
      assert s == d;
    } else {
      DigitsOfRound(d, z - 1);
      assert s[..|s| - 1] == d + seq(z - 1, _ => '0');
      assert s[|s| - 1] == '0';
      assert DigitsValue(s) == DigitsValue(d) * Pow10(z - 1) * 10;
      assert Pow10(z) == 10 * Pow10(z - 1);
    }
  }

  function Pow10(z: nat): nat {
    if z == 0 then 1 else 10 * Pow10(z - 1)
  }

  /** The seeded amounts, read digit by digit. */
  lemma SeedAmounts()
    ensures AllDigits("150000") && DigitsValue("150000") == 150000
    ensures AllDigits("120000") && DigitsValue("120000") == 120000
    ensures AllDigits("90000") && DigitsValue("90000") == 90000
  {
    var zeros := seq(4, _ => '0');
    assert zeros == "0000";
    assert "15"[..1] == "1" && "12"[..1] == "1";
    DigitsOfRound("15", 4);
    DigitsOfRound("12", 4);
    DigitsOfRound("9", 4);
    assert "15" + zeros == "150000" && "12" + zeros == "120000" && "9" + zeros == "90000";
  }

  /** The price text seeded for the first concert, `{"VIP": 150000, "R": 120000, "S": 90000}`,
      assembled entry by entry: a space follows every colon and comma. */
  const SeedLast: string := " " + ("\"" + ("S" + ("\"" + (":" + (" " + ("90000" + "}"))))))
  const SeedMiddle: string := " " + ("\"" + ("R" + ("\"" + (":" + (" " + ("120000" + ("," + SeedLast)))))))
  const SeedFirst: string := "\"" + ("VIP" + ("\"" + (":" + (" " + ("150000" + ("," + SeedMiddle))))))
  const SeedPriceText: string := "{" + SeedFirst

  lemma SeedLastEntry()
    ensures ParseEntries(SeedLast) == Some(([PriceEntry("S", 90000)], ""))
  {
    SeedAmounts();
    ParseSpacedLast(" ", "S", "90000");
  }

  lemma SeedMiddleEntry()
    ensures ParseEntries(SeedMiddle) == Some(([PriceEntry("R", 120000), PriceEntry("S", 90000)], ""))
  {
    SeedAmounts();
    SeedLastEntry();
    ParseSpacedMore(" ", "R", "120000", SeedLast, [PriceEntry("S", 90000)]);
    assert [PriceEntry("R", 120000)] + [PriceEntry("S", 90000)] == [PriceEntry("R", 120000), PriceEntry("S", 90000)];
  }

  lemma SeedFirstEntry()
    ensures ParseEntries(SeedFirst)
      == Some(([PriceEntry("VIP", 150000), PriceEntry("R", 120000), PriceEntry("S", 90000)], ""))
  {
    SeedAmounts();
    SeedMiddleEntry();
    ParseSpacedMore("", "VIP", "150000", SeedMiddle, [PriceEntry("R", 120000), PriceEntry("S", 90000)]);
    assert "" + SeedFirst == SeedFirst;
    assert [PriceEntry("VIP", 150000)] + [PriceEntry("R", 120000), PriceEntry("S", 90000)]
      == [PriceEntry("VIP", 150000), PriceEntry("R", 120000), PriceEntry("S", 90000)];
  }

  /** The assembled text is, character for character, the seeded one: the
      seeded literal cut after its opening brace and after each comma. */
  lemma SeedPriceTextIs()
    ensures SeedPriceText == "{" + ("\"VIP\": 150000," + (" \"R\": 120000," + " \"S\": 90000}"))
  {
    SeedTailIs();
  }

  lemma SeedTailIs()
    ensures SeedMiddle == " \"R\": 120000," + " \"S\": 90000}"
  {
    assert SeedLast == " \"S\": 90000}";
  }

  /** The seeded price text of the first concert is read as its three entries. */
  lemma SeedPriceDecodes()
    ensures Decode(SeedPriceText)
      == Some([PriceEntry("VIP", 150000), PriceEntry("R", 120000), PriceEntry("S", 90000)])
  {
    SeedFirstEntry();
    SkipNoSpace(SeedPriceText);
    SkipNoSpace(SeedFirst);
    SkipNoSpace("");
  }

  /** What the create handler stores is read back as the submitted price object. */
  lemma {:induction false} DecodeEncode(p: seq<PriceEntry>)
    ensures Decode(Encode(p)) == Some(p)
  {
    var s := Encode(p);
    SkipNoSpace(s);
    if |p| == 0 {
      SkipNoSpace(s[1..]);
    } else {
      assert s[1] == '"';
      SkipNoSpace(s[1..]);
      ParseEncodedEntries(p, "");
      assert s[1..] == EncodeEntries(p) + "}" + "";
    }
  }
}

=== FILE: profile_page.dfy ===
/** The profile page: the password-change checks on submit, the payload handed to
    the profile update, and the form after a successful update. */
module ProfilePage {
  import opened Common

  datatype ProfileForm = ProfileForm(
    username: string, email: string, currentPassword: string, newPassword: string, confirmPassword: string)

  datatype PasswordChange = PasswordChange(currentPassword: string, newPassword: string)

  /** `{ username, ...(newPassword && { currentPassword, newPassword }) }`; there is no e-mail field. */
  datatype ProfilePayload = ProfilePayload(username: string, change: Option<PasswordChange>)

  datatype Submission = Refused(message: string) | Sent(payload: ProfilePayload)

  const MinimumPasswordLength: int := 6
  const ShortPasswordMessage: string := "비밀번호는 최소 6자 이상이어야 합니다"
  const MismatchMessage: string := "새 비밀번호와 확인 비밀번호가 일치하지 않습니다"
  const MissingCurrentMessage: string := "현재 비밀번호를 입력해주세요"

  /** `handleSubmit`: with a new password, too short, then not confirmed, then no
      current password, each stops the submission; otherwise the payload is handed on. */
  function Submit(f: ProfileForm): (s: Submission)
    ensures f.newPassword == "" ==> s == Sent(ProfilePayload(f.username, None))
    ensures f.newPassword != "" && Utf16Length(f.newPassword) < MinimumPasswordLength ==> s == Refused(ShortPasswordMessage)
    ensures f.newPassword != "" && Utf16Length(f.newPassword) >= MinimumPasswordLength && f.newPassword != f.confirmPassword ==>
      s == Refused(MismatchMessage)
    ensures f.newPassword != "" && Utf16Length(f.newPassword) >= MinimumPasswordLength && f.newPassword == f.confirmPassword && f.currentPassword == "" ==>
      s == Refused(MissingCurrentMessage)
    ensures f.newPassword != "" && Utf16Length(f.newPassword) >= MinimumPasswordLength && f.newPassword == f.confirmPassword && f.currentPassword != "" ==>
      s == Sent(ProfilePayload(f.username, Some(PasswordChange(f.currentPassword, f.newPassword))))
    ensures s.Sent? ==> s.payload.username == f.username
    ensures f.newPassword != "" && s.Sent? ==> s.payload.change == Some(PasswordChange(f.currentPassword, f.newPassword))
  {
    if f.newPassword != "" && Utf16Length(f.newPassword) < MinimumPasswordLength then Refused(ShortPasswordMessage)
    else if f.newPassword != "" && f.newPassword != f.confirmPassword then Refused(MismatchMessage)
    else if f.newPassword != "" && f.currentPassword == "" then Refused(MissingCurrentMessage)
    else if f.newPassword != "" then Sent(ProfilePayload(f.username, Some(PasswordChange(f.currentPassword, f.newPassword))))
    else Sent(ProfilePayload(f.username, None))
  }

  /** A password change is handed on only when it passed every check. */
  lemma SentChangeWasChecked(f: ProfileForm)
    requires Submit(f).Sent? && Submit(f).payload.change.Some?
    ensures var c := Submit(f).payload.change.value;
      && Utf16Length(c.newPassword) >= MinimumPasswordLength && c.newPassword == f.confirmPassword
      && c.currentPassword == f.currentPassword != "" && c.newPassword == f.newPassword
  {
  }

  /** The form is submitted exactly when there is no new password or it passes all three checks. */
  lemma SubmitIff(f: ProfileForm)
    ensures Submit(f).Sent? <==>
      f.newPassword == ""
      || (Utf16Length(f.newPassword) >= MinimumPasswordLength && f.newPassword == f.confirmPassword && f.currentPassword != "")
  {
  }

  /** After a successful update the three password boxes are emptied; name and e-mail stay. */
  function AfterSuccess(f: ProfileForm): (r: ProfileForm)
    ensures r.username == f.username && r.email == f.email
    ensures r.currentPassword == "" && r.newPassword == "" && r.confirmPassword == ""
  {
    f.(currentPassword := "", newPassword := "", confirmPassword := "")
  }

  /** Submitting again after a success sends the name alone. */
  lemma ResubmitSendsOnlyUsername(f: ProfileForm)
    ensures Submit(AfterSuccess(f)) == Sent(ProfilePayload(f.username, None))
  {
  }
}

=== FILE: search_page.dfy ===
/** The search results page: the price text read as a number, the filter by
    title or artist, and the optional sort by price. */
module SearchPage {
  import opened Common
  import opened Decimal
  import opened Sorting

  /** One listed result; the price is display text such as "110,000원". */
  datatype SearchItem = SearchItem(
    id: int, title: string, artist: string, date: string, time: string, venue: string,
    price: string, status: string)

  datatype SortOrder = Ascending | Descending | Unsorted

  /** `price.replace(/[^0-9]/g, "")`. */
  function PriceDigits(price: string): (d: string)
    ensures AllDigits(d) && IsSubsequence(d, price)
    ensures forall c :: multiset(d)[c] == if IsDigit(c) then multiset(price)[c] else 0
  {
    Filter(price, IsDigit)
  }

  /** `getPriceNumber`: the digits read as a decimal number; `None` stands for NaN,
      which `parseInt` gives when no digit is left. */
  function GetPriceNumber(price: string): (r: Option<nat>)
    ensures r.None? <==> forall i :: 0 <= i < |price| ==> !IsDigit(price[i])
  {
    var d := PriceDigits(price);
    if |d| == 0 then
      assert forall i :: 0 <= i < |price| ==> !IsDigit(price[i]) by {
        forall i | 0 <= i < |price| ensures !IsDigit(price[i]) {
          assert price[i] in multiset(price);
        }
      }
      None
    else
      assert d[0] in multiset(d);
      Some(DigitsValue(d))
  }

  /** The number written in the price text, whatever non-digit text (currency sign,
      unit) surrounds it, is read back. */
  lemma PriceOfPaddedNumber(before: string, n: nat, after: string)
    requires forall i :: 0 <= i < |before| ==> !IsDigit(before[i])
    requires forall i :: 0 <= i < |after| ==> !IsDigit(after[i])
    ensures GetPriceNumber(before + NatToString(n) + after) == Some(n)
  {
    var digits := NatToString(n);
    PaddedDigits(before, digits, after);
    DigitsValueOfNatToString(n);
  }

  /** Stripping non-digit padding leaves the digits. */
  lemma PaddedDigits(before: string, digits: string, after: string)
    requires forall i :: 0 <= i < |before| ==> !IsDigit(before[i])
    requires forall i :: 0 <= i < |after| ==> !IsDigit(after[i])
    requires AllDigits(digits)
    ensures PriceDigits(before + digits + after) == digits
  {
    FilterConcat(before + digits, after, IsDigit);
    FilterConcat(before, digits, IsDigit);
    FilterKeepsNone(before, IsDigit);
    FilterKeepsNone(after, IsDigit);
    FilterKeepsAll(digits, IsDigit);
    assert Filter(before + digits, IsDigit) == digits;
  }

  /** A non-digit anywhere in the text, such as the thousands separator in
      "110,000원", does not change the number read. */
  lemma NonDigitIgnored(a: string, c: char, b: string)
    requires !IsDigit(c)
    ensures GetPriceNumber(a + [c] + b) == GetPriceNumber(a + b)
  {
    NonDigitDropped(a, c, b);
    SameDigitsSamePrice(a + [c] + b, a + b);
  }

  lemma NonDigitDropped(a: string, c: char, b: string)
    requires !IsDigit(c)
    ensures PriceDigits(a + [c] + b) == PriceDigits(a + b)
  {
    var ac := a + [c];
    var fa := Filter(a, IsDigit);
    var fb := Filter(b, IsDigit);
    FilterKeepsNone([c], IsDigit);
    FilterConcat(a, [c], IsDigit);
    assert Filter(ac, IsDigit) == fa + [];
    assert Filter(ac, IsDigit) == fa;
    FilterConcat(ac, b, IsDigit);
    assert Filter(ac + b, IsDigit) == fa + fb;
    FilterConcat(a, b, IsDigit);
    assert Filter(a + b, IsDigit) == fa + fb;
    assert a + [c] + b == ac + b;
  }

  lemma SameDigitsSamePrice(x: string, y: string)
    requires PriceDigits(x) == PriceDigits(y)
    ensures GetPriceNumber(x) == GetPriceNumber(y)
  {
  }

  /** `query?.toLowerCase() || ""`. */
  function Needle(query: Option<string>): string {
    if query.Some? then ToLower(query.value) else ""
  }

  /** The lower-cased query occurs in the lower-cased title or artist. */
  predicate Kept(item: SearchItem, query: Option<string>) {
    Contains(ToLower(item.title), Needle(query)) || Contains(ToLower(item.artist), Needle(query))
  }

  /** `filteredResults`. */
  function FilterResults(items: seq<SearchItem>, query: Option<string>): (r: seq<SearchItem>)
    ensures forall x :: x in r <==> x in items && Kept(x, query)
    ensures forall x :: multiset(r)[x] == if Kept(x, query) then multiset(items)[x] else 0
    ensures IsSubsequence(r, items)
  {
    var keep := (x: SearchItem) => Kept(x, query);
    FilterMembers(items, keep);
    Filter(items, keep)
  }

  /** Without a query (absent or empty) nothing is filtered out. */
  lemma NoQueryKeepsAll(items: seq<SearchItem>, query: Option<string>)
    requires query.None? || query.value == ""
    ensures FilterResults(items, query) == items
  {
    assert Needle(query) == "";
    forall i | 0 <= i < |items| ensures Kept(items[i], query) {
      ContainsEmpty(ToLower(items[i].title));
    }
    FilterKeepsAll(items, (x: SearchItem) => Kept(x, query));
  }

  /** The sort key: the price number, with NaN taken as 0. */
  function PriceKey(item: SearchItem): nat {
    match GetPriceNumber(item.price)
    case Some(n) => n
    case None => 0
  }

  /** The comparator as an ordering: by price up, by price down, or all equal. */
  function OrderFor(order: SortOrder): (le: (SearchItem, SearchItem) -> bool)
    ensures TotalPreorder(le)
  {
    match order
    case Ascending => (a: SearchItem, b: SearchItem) => PriceKey(a) <= PriceKey(b)
    case Descending => (a: SearchItem, b: SearchItem) => PriceKey(a) >= PriceKey(b)
    case Unsorted => (a: SearchItem, b: SearchItem) => true
  }

  /** `sortedResults`: a permutation of the filtered list, by price in the chosen
      direction; with no order chosen the comparator answers 0 and the stable sort
      keeps the list as it is. */
  function SortResults(items: seq<SearchItem>, order: SortOrder): (r: seq<SearchItem>)
    ensures multiset(r) == multiset(items) && |r| == |items|
    ensures order == Ascending ==> forall i, j :: 0 <= i < j < |r| ==> PriceKey(r[i]) <= PriceKey(r[j])
    ensures order == Descending ==> forall i, j :: 0 <= i < j < |r| ==> PriceKey(r[i]) >= PriceKey(r[j])
    ensures order == Unsorted ==> r == items
  {
    var le := OrderFor(order);
    var r := Sort(items, le);
    assert SortedBy(r, le);
    if order == Unsorted then
      SortAllEqual(items, le);
      r
    else r
  }

  /** The page's list: filtered, then sorted. */
  function Results(items: seq<SearchItem>, query: Option<string>, order: SortOrder): (r: seq<SearchItem>)
    ensures forall x :: x in r <==> x in items && Kept(x, query)
    ensures forall x :: multiset(r)[x] == if Kept(x, query) then multiset(items)[x] else 0
    ensures order == Ascending ==> forall i, j :: 0 <= i < j < |r| ==> PriceKey(r[i]) <= PriceKey(r[j])
    ensures order == Descending ==> forall i, j :: 0 <= i < j < |r| ==> PriceKey(r[i]) >= PriceKey(r[j])
    ensures order == Unsorted ==> IsSubsequence(r, items)
  {
    var hits := FilterResults(items, query);
    var r := SortResults(hits, order);
    MultisetMembers(r, hits);
    r
  }
}

=== FILE: sell_page.dfy ===
/** The sell page: the concert search box, choosing a concert, and the form check. */
module SellPage {
  import opened Common

  datatype SellConcert = SellConcert(id: int, title: string, date: string, venue: string)

  /** The page state: the search box and its results, the chosen concert and the listing fields. */
  datatype SellForm = SellForm(
    searchTerm: string, results: seq<SellConcert>, selected: Option<SellConcert>,
    quantity: string, seatInfo: string, price: string, description: string, consecutiveSeats: bool)

  /** The title test with the term already lower-cased. */
  function TitleHas(needle: string): SellConcert -> bool {
    (c: SellConcert) => Contains(ToLower(c.title), needle)
  }

  /** The search effect: concerts whose lower-cased title contains the lower-cased
      term, in list order; an empty term gives no results at all. */
  function SearchConcerts(concerts: seq<SellConcert>, term: string): (r: seq<SellConcert>)
    ensures term == "" ==> r == []
    ensures term != "" ==> forall c :: c in r <==> c in concerts && ContainsIgnoringCase(c.title, term)
    ensures term != "" ==> forall c :: multiset(r)[c] == if ContainsIgnoringCase(c.title, term) then multiset(concerts)[c] else 0
    ensures IsSubsequence(r, concerts)
  {
    if |term| > 0 then
      FilterMembers(concerts, TitleHas(ToLower(term)));
      Filter(concerts, TitleHas(ToLower(term)))
    else []
  }

  /** `handleConcertSelect`: the concert is chosen and the search box and results are cleared. */
  function SelectConcert(f: SellForm, c: SellConcert): (r: SellForm)
    ensures r.selected == Some(c) && r.searchTerm == "" && r.results == []
    ensures r.quantity == f.quantity && r.seatInfo == f.seatInfo && r.price == f.price
    ensures r.description == f.description && r.consecutiveSeats == f.consecutiveSeats
  {
    f.(selected := Some(c), searchTerm := "", results := [])
  }

  /** After choosing, the cleared results agree with what the search effect computes for the cleared term. */
  lemma SelectionConsistentWithSearch(concerts: seq<SellConcert>, f: SellForm, c: SellConcert)
    ensures var r := SelectConcert(f, c); r.results == SearchConcerts(concerts, r.searchTerm)
  {
  }

  /** `selectedConcert && seatInfo && price && ticketDescription`. */
  predicate FormValid(f: SellForm) {
    f.selected.Some? && f.seatInfo != "" && f.price != "" && f.description != ""
  }

  /** The quantity field plays no part in the form check. */
  lemma QuantityIrrelevant(f: SellForm, quantity: string)
    ensures FormValid(f) <==> FormValid(f.(quantity := quantity))
  {
  }

  /** The search is case-insensitive for ASCII letters. */
  lemma SearchIgnoresCase(concerts: seq<SellConcert>, term: string)
    ensures SearchConcerts(concerts, term) == SearchConcerts(concerts, ToLower(term))
  {
    assert ToLower(ToLower(term)) == ToLower(term);
  }
}

=== FILE: signup_page.dfy ===
/** The signup page: the five live password rules, the form-validity flag, the
    order of the checks on submit, the request it sends to the users handler and
    the message it shows for the handler's answer. */
module SignupPage {
  import opened Common
  import EmailPattern
  import UsersApi

  /** The form state the page keeps. `emailError` is the message of the debounced
      duplicate check ("" when there is none); `checkingEmail` is set while it runs. */
  datatype SignupForm = SignupForm(
    email: string, password: string, confirmPassword: string, agreed: bool,
    emailError: string, checkingEmail: bool)

  /** The five checks listed under the password field. */
  datatype PasswordRules = PasswordRules(length: bool, hasLetter: bool, hasNumber: bool, hasSpecial: bool, matches: bool)

  /** What submitting does: stop with a message, or POST the request to the users handler. */
  datatype Submission = Refused(message: string) | Sent(request: UsersApi.UserRequest)

  const CheckingMessage: string := "이메일 중복 검사 중입니다. 잠시 후 다시 시도해주세요."
  const BadEmailMessage: string := "유효한 이메일 주소를 입력해주세요."
  const WeakPasswordMessage: string := "비밀번호 요구사항을 모두 충족해야 합니다."
  const DuplicateMessage: string := "이미 사용 중인 이메일 주소입니다. 다른 이메일을 사용해주세요."
  const FailedMessage: string := "회원가입에 실패했습니다."

  /** The characters of the class `[!@#$%^&*(),.?":{}|<>]`. */
  const SpecialChars: string := "!@#$%^&*(),.?\":{}|<>"

  predicate IsAsciiLetter(c: char) {
    'a' <= c <= 'z' || 'A' <= c <= 'Z'
  }

  predicate IsAsciiDigit(c: char) {
    '0' <= c <= '9'
  }

  predicate IsSpecial(c: char) {
    c in SpecialChars
  }

  /** `/[class]/.test(s)`, scanning from the left. */
  function AnyChar(s: string, inClass: char -> bool): (r: bool)
    ensures r <==> exists i :: 0 <= i < |s| && inClass(s[i])
  {
    if |s| == 0 then false
    else if inClass(s[0]) then true
    else
      assert forall i :: 1 <= i < |s| ==> s[i] == s[1..][i - 1];
      AnyChar(s[1..], inClass)
  }

  /** The rules as the page recomputes them on every keystroke. */
  function Rules(password: string, confirm: string): (r: PasswordRules)
    ensures r.length <==> Utf16Length(password) >= 8
    ensures r.hasLetter <==> exists i :: 0 <= i < |password| && IsAsciiLetter(password[i])
    ensures r.hasNumber <==> exists i :: 0 <= i < |password| && IsAsciiDigit(password[i])
    ensures r.hasSpecial <==> exists i :: 0 <= i < |password| && password[i] in SpecialChars
    ensures r.matches <==> password == confirm && confirm != ""
  {
    PasswordRules(
      Utf16Length(password) >= 8,
      AnyChar(password, IsAsciiLetter),
      AnyChar(password, IsAsciiDigit),
      AnyChar(password, IsSpecial),
      password == confirm && confirm != "")
  }

  /** `Object.values(passwordValidation).every(Boolean)`. */
  predicate PasswordValid(password: string, confirm: string) {
    var r := Rules(password, confirm);
    r.length && r.hasLetter && r.hasNumber && r.hasSpecial && r.matches
  }

  /** The flag that enables the submit button. */
  predicate FormValid(f: SignupForm) {
    PasswordValid(f.password, f.confirmPassword) && f.emailError == "" && f.email != "" && f.agreed
  }

  /** `email.split("@")[0]`: the text before the first '@', or all of it. */
  function UsernameOf(email: string): (u: string)
    ensures |u| <= |email| && u == email[..|u|]
    ensures forall i :: 0 <= i < |u| ==> u[i] != '@'
    ensures |u| == |email| || email[|u|] == '@'
  {
    if |email| == 0 || email[0] == '@' then ""
    else [email[0]] + UsernameOf(email[1..])
  }

  /** `handleSubmit`: a running duplicate check, then the duplicate message, then the
      e-mail pattern, then the password rules; only when all pass is the request sent,
      with the user name derived from the e-mail. The agreement box is not consulted. */
  function Submit(f: SignupForm): (s: Submission)
    ensures f.checkingEmail ==> s == Refused(CheckingMessage)
    ensures !f.checkingEmail && f.emailError != "" ==> s == Refused(f.emailError)
    ensures !f.checkingEmail && f.emailError == "" && !EmailPattern.Matches(f.email) ==> s == Refused(BadEmailMessage)
    ensures !f.checkingEmail && f.emailError == "" && EmailPattern.Matches(f.email) && !PasswordValid(f.password, f.confirmPassword) ==>
      s == Refused(WeakPasswordMessage)
    ensures s.Sent? <==>
      !f.checkingEmail && f.emailError == "" && EmailPattern.Matches(f.email) && PasswordValid(f.password, f.confirmPassword)
    ensures s.Sent? ==> s.request == UsersApi.UserRequest(None, Some(f.email), Some(f.password), Some(UsernameOf(f.email)))
  {
    if f.checkingEmail then Refused(CheckingMessage)
    else if f.emailError != "" then Refused(f.emailError)
    else if !EmailPattern.Matches(f.email) then Refused(BadEmailMessage)
    else if !PasswordValid(f.password, f.confirmPassword) then Refused(WeakPasswordMessage)
    else Sent(UsersApi.UserRequest(None, Some(f.email), Some(f.password), Some(UsernameOf(f.email))))
  }

  /** The error shown for the handler's answer; `None` on success (status 200-299). */
  function ErrorFor(status: int, error: Option<string>): (m: Option<string>)
    ensures 200 <= status < 300 <==> m.None?
    ensures status == 409 ==> m == Some(DuplicateMessage)
    ensures !(200 <= status < 300) && status != 409 ==> m == Some(OrDefault(error, FailedMessage))
  {
    if 200 <= status < 300 then None
    else if status == 409 then Some(DuplicateMessage)
    else Some(OrDefault(error, FailedMessage))
  }

  /** The submit button is enabled exactly for a valid, confirmed password, an e-mail
      the duplicate check has not flagged, and a ticked agreement. An untouched form
      (empty e-mail or password) keeps it disabled. */
  lemma FormValidIff(f: SignupForm)
    ensures FormValid(f) <==>
      && Utf16Length(f.password) >= 8
      && (exists i :: 0 <= i < |f.password| && IsAsciiLetter(f.password[i]))
      && (exists i :: 0 <= i < |f.password| && IsAsciiDigit(f.password[i]))
      && (exists i :: 0 <= i < |f.password| && f.password[i] in SpecialChars)
      && f.password == f.confirmPassword && f.confirmPassword != ""
      && f.emailError == "" && f.email != "" && f.agreed
    ensures f.email == "" || f.password == "" || !f.agreed ==> !FormValid(f)
  {
    PasswordValidIff(f.password, f.confirmPassword);
  }

  /** Valid means: eight or more UTF-16 code units with an ASCII letter, a digit and one of
      the special characters, confirmed by an identical non-empty second entry. */
  lemma PasswordValidIff(password: string, confirm: string)
    ensures PasswordValid(password, confirm) <==>
      && Utf16Length(password) >= 8
      && (exists i :: 0 <= i < |password| && IsAsciiLetter(password[i]))
      && (exists i :: 0 <= i < |password| && IsAsciiDigit(password[i]))
      && (exists i :: 0 <= i < |password| && password[i] in SpecialChars)
      && password == confirm && confirm != ""
  {
    var r := Rules(password, confirm);
  }

  /** A password of the shape the rules ask for. */
  lemma ExamplePasswordValid()
    ensures PasswordValid("abcd123!", "abcd123!")
    ensures !PasswordValid("abcd1234", "abcd1234")
  {
    var p := "abcd123!";
    assert IsAsciiLetter(p[0]) && IsAsciiDigit(p[4]) && p[7] in SpecialChars;
    var q := "abcd1234";
    assert forall i :: 0 <= i < |q| ==> q[i] !in SpecialChars;
  }

  /** With a pattern-valid e-mail, the derived user name is the non-empty part before its single '@'. */
  lemma UsernameOfMatching(email: string)
    requires EmailPattern.Matches(email)
    ensures var u := UsernameOf(email);
      0 < |u| < |email| && email[|u|] == '@' && forall i :: |u| < i < |email| ==> email[i] != '@'
  {
    var at, dot :| 0 < at < |email| && at + 1 < dot < |email| - 1 && EmailPattern.SplitsAt(email, at, dot);
    var u := UsernameOf(email);
    assert |u| == at;
    forall i | |u| < i < |email| ensures email[i] != '@' {
      assert EmailPattern.IsPlain(email[i]);
    }
  }

  /** A valid form with no check running and a pattern-valid e-mail is sent. */
  lemma FormValidSubmits(f: SignupForm)
    requires FormValid(f) && !f.checkingEmail && EmailPattern.Matches(f.email)
    ensures Submit(f).Sent?
  {
  }

  /** Whatever the page sends passes the handler's required-field and pattern checks:
      the handler answers 201 or, for an e-mail already registered, 409. */
  lemma SentRequestPassesHandlerChecks(f: SignupForm, store: seq<UsersApi.User>, newId: int)
    requires Submit(f).Sent?
    ensures var r := UsersApi.Post(store, Submit(f).request, newId);
      r.status == 201 || r.status == 409
    ensures UsersApi.Post(store, Submit(f).request, newId).status == 409 <==>
      exists i :: 0 <= i < |store| && store[i].email == f.email
  {
    UsernameOfMatching(f.email);
    var q := Submit(f).request;
    assert q.email == Some(f.email) && f.email != "";
    assert Utf16Length(f.password) >= 8;
    assert q.password.value != "";
    assert q.username.value != "";
    assert UsersApi.HasRequired(q);
  }
}

=== FILE: sorting.dfy ===
/** A stable sort. JavaScript's `Array.prototype.sort` is stable, and the
    handlers and pages sort by one key, so a stable insertion sort by a total
    preorder `le` reproduces their results; "ascending by k" is
    `le(a, b) == k(a) <= k(b)`, "descending by k" is `le(a, b) == k(a) >= k(b)`. */
module Sorting {
  import opened Common

  /** `le` compares every pair and is transitive. */
  ghost predicate TotalPreorder<T(!new)>(le: (T, T) -> bool) {
    && (forall a, b :: le(a, b) || le(b, a))
    && (forall a, b, c :: le(a, b) && le(b, c) ==> le(a, c))
  }

  predicate SortedBy<T>(s: seq<T>, le: (T, T) -> bool) {
    forall i, j :: 0 <= i < j < |s| ==> le(s[i], s[j])
  }

  /** Puts `x` in front of the first element it is `le` to. */
  function Insert<T(!new)>(x: T, s: seq<T>, le: (T, T) -> bool): (r: seq<T>)
    requires TotalPreorder(le)
    requires SortedBy(s, le)
    ensures multiset(r) == multiset(s) + multiset{x}
    ensures |r| == |s| + 1
    ensures SortedBy(r, le)
  {
    if |s| == 0 then [x]
    else if le(x, s[0]) then
      assert forall j :: 0 <= j < |s| ==> le(x, s[j]) by {
        forall j | 0 <= j < |s| ensures le(x, s[j]) {
          if j > 0 { assert le(s[0], s[j]); }
        }
      }
      [x] + s
    else
      assert s == [s[0]] + s[1..];
      var rest := Insert(x, s[1..], le);
      HeadBelowInserted(x, s, rest, le);
      [s[0]] + rest
  }

  /** When `x` goes after the head of a sorted `s`, the head stays below everything
      the tail becomes once `x` is inserted into it. */
  lemma HeadBelowInserted<T(!new)>(x: T, s: seq<T>, rest: seq<T>, le: (T, T) -> bool)
    requires TotalPreorder(le)
    requires SortedBy(s, le) && |s| > 0 && !le(x, s[0])
    requires multiset(rest) == multiset(s[1..]) + multiset{x}
    ensures forall j :: 0 <= j < |rest| ==> le(s[0], rest[j])
  {
    assert le(s[0], x);
    forall j | 0 <= j < |rest| ensures le(s[0], rest[j]) {
      var y := rest[j];
      assert y in multiset(rest);
      if y != x {
        assert y in multiset(s[1..]);
        var k :| 0 <= k < |s[1..]| && s[1..][k] == y;
        assert s[k + 1] == y;
      }
    }
  }

  /** Sorting keeps exactly the elements it was given. */
  lemma SortMembers<T(!new)>(s: seq<T>, le: (T, T) -> bool)
    requires TotalPreorder(le)
    ensures forall x :: x in Sort(s, le) <==> x in s
  {
    var r := Sort(s, le);
    forall x ensures x in r <==> x in s {
      assert x in r <==> x in multiset(r);
      assert x in s <==> x in multiset(s);
    }
  }

  /** Insertion sort: a permutation of `s`, ordered by `le`, equal elements kept in input order. */
  function Sort<T(!new)>(s: seq<T>, le: (T, T) -> bool): (r: seq<T>)
    requires TotalPreorder(le)
    ensures multiset(r) == multiset(s)
    ensures |r| == |s|
    ensures SortedBy(r, le)
  {
    if |s| == 0 then []
    else
      assert s == [s[0]] + s[1..];
      Insert(s[0], Sort(s[1..], le), le)
  }

  /** A comparison that calls every pair equal leaves the order untouched. */
  lemma {:induction false} SortAllEqual<T(!new)>(s: seq<T>, le: (T, T) -> bool)
    requires forall a, b :: le(a, b)
    ensures Sort(s, le) == s
  {
    if |s| > 0 {
      SortAllEqual(s[1..], le);
      assert s == [s[0]] + s[1..];
    }
  }

  /** The elements `le` ranks level with `x`. */
  function EquivalentTo<T>(x: T, le: (T, T) -> bool): T -> bool {
    (y: T) => le(x, y) && le(y, x)
  }

  /** `p` picks out elements that `le` ranks level with one another. */
  ghost predicate LevelClass<T(!new)>(p: T -> bool, le: (T, T) -> bool) {
    forall y, z :: p(y) && p(z) ==> le(y, z)
  }

  /** Inserting `x0` puts it in front of every element of its level class that is
      already in the list, and leaves their order alone. */
  lemma {:induction false} InsertStable<T(!new)>(x0: T, t: seq<T>, le: (T, T) -> bool, p: T -> bool)
    requires TotalPreorder(le) && LevelClass(p, le)
    requires SortedBy(t, le)
    ensures Filter(Insert(x0, t, le), p) == (if p(x0) then [x0] else []) + Filter(t, p)
  {
    if |t| == 0 {
      FilterCons(x0, [], p);
      assert [x0] + [] == [x0];
    } else if le(x0, t[0]) {
      FilterCons(x0, t, p);
    } else {
      InsertStable(x0, t[1..], le, p);
      InsertStableAfterHead(x0, t, le, p);
    }
  }

  /** The step of `InsertStable` where `x0` goes after the head of `t`: the head and
      `x0` are not both in the class, so their order among the kept ones is moot. */
  lemma InsertStableAfterHead<T(!new)>(x0: T, t: seq<T>, le: (T, T) -> bool, p: T -> bool)
    requires TotalPreorder(le) && LevelClass(p, le)
    requires SortedBy(t, le) && |t| > 0 && !le(x0, t[0])
    requires Filter(Insert(x0, t[1..], le), p) == (if p(x0) then [x0] else []) + Filter(t[1..], p)
    ensures Filter(Insert(x0, t, le), p) == (if p(x0) then [x0] else []) + Filter(t, p)
  {
    FilterInsertAfterHead(x0, t, le, p);
    FilterHead(t, p);
    var h := if p(x0) then [x0] else [];
    var m := if p(t[0]) then [t[0]] else [];
    assert h == [] || m == [];
    SwapAroundEmpty(h, m, Filter(t[1..], p));
  }

  lemma SwapAroundEmpty<T>(a: seq<T>, b: seq<T>, c: seq<T>)
    requires a == [] || b == []
    ensures b + (a + c) == a + (b + c)
  {
    if a == [] {
      assert a + c == c && a + (b + c) == b + c;
    } else {
      assert b + c == c && b + (a + c) == a + c;
    }
  }

  /** Filtering after the head of `t` was kept in front of the inserted element. */
  lemma FilterInsertAfterHead<T(!new)>(x0: T, t: seq<T>, le: (T, T) -> bool, p: T -> bool)
    requires TotalPreorder(le)
    requires SortedBy(t, le) && |t| > 0 && !le(x0, t[0])
    ensures Filter(Insert(x0, t, le), p) == (if p(t[0]) then [t[0]] else []) + Filter(Insert(x0, t[1..], le), p)
  {
    InsertAfterHead(x0, t, le);
    FilterCons(t[0], Insert(x0, t[1..], le), p);
  }

  lemma FilterHead<T(!new)>(t: seq<T>, p: T -> bool)
    requires |t| > 0
    ensures Filter(t, p) == (if p(t[0]) then [t[0]] else []) + Filter(t[1..], p)
  {
    FilterCons(t[0], t[1..], p);
    assert t == [t[0]] + t[1..];
  }

  lemma InsertAfterHead<T(!new)>(x0: T, t: seq<T>, le: (T, T) -> bool)
    requires TotalPreorder(le)
    requires SortedBy(t, le) && |t| > 0 && !le(x0, t[0])
    ensures Insert(x0, t, le) == [t[0]] + Insert(x0, t[1..], le)
  {
  }

  /** The elements level with `x` form a level class. */
  lemma EquivalentToIsLevelClass<T(!new)>(x: T, le: (T, T) -> bool)
    requires TotalPreorder(le)
    ensures LevelClass(EquivalentTo(x, le), le)
  {
    forall y, z | EquivalentTo(x, le)(y) && EquivalentTo(x, le)(z) ensures le(y, z) {
      assert le(y, x) && le(x, z);
    }
  }

  /** Stability: among elements level with one another, sorting keeps the input order. */
  lemma SortStable<T(!new)>(s: seq<T>, le: (T, T) -> bool, x: T)
    requires TotalPreorder(le)
    ensures Filter(Sort(s, le), EquivalentTo(x, le)) == Filter(s, EquivalentTo(x, le))
  {
    EquivalentToIsLevelClass(x, le);
    SortKeepsClassOrder(s, le, EquivalentTo(x, le));
  }

  lemma {:induction false} SortKeepsClassOrder<T(!new)>(s: seq<T>, le: (T, T) -> bool, p: T -> bool)
    requires TotalPreorder(le) && LevelClass(p, le)
    ensures Filter(Sort(s, le), p) == Filter(s, p)
  {
    if |s| > 0 {
      SortKeepsClassOrder(s[1..], le, p);
      InsertStable(s[0], Sort(s[1..], le), le, p);
      assert s == [s[0]] + s[1..];
      FilterCons(s[0], s[1..], p);
    }
  }

  /** Lexicographic order of strings by character code, as a database orders text. */
  predicate LexLe(a: string, b: string) {
    |a| == 0 || (|b| > 0 && (a[0] < b[0] || (a[0] == b[0] && LexLe(a[1..], b[1..]))))
  }

  lemma {:induction false} LexLeTotal(a: string, b: string)
    ensures LexLe(a, b) || LexLe(b, a)
  {
    if |a| > 0 && |b| > 0 && a[0] == b[0] {
      LexLeTotal(a[1..], b[1..]);
    }
  }

  lemma {:induction false} LexLeTransitive(a: string, b: string, c: string)
    requires LexLe(a, b) && LexLe(b, c)
    ensures LexLe(a, c)
  {
    if |a| > 0 && |b| > 0 && |c| > 0 && a[0] == b[0] && b[0] == c[0] {
      LexLeTransitive(a[1..], b[1..], c[1..]);
    }
  }

  /** The lexicographic order is a total preorder (indeed a total order). */
  lemma LexLeIsTotalPreorder()
    ensures forall a, b :: LexLe(a, b) || LexLe(b, a)
    ensures forall a, b, c :: LexLe(a, b) && LexLe(b, c) ==> LexLe(a, c)
  {
    forall a, b ensures LexLe(a, b) || LexLe(b, a) {
      LexLeTotal(a, b);
    }
    forall a, b, c | LexLe(a, b) && LexLe(b, c) ensures LexLe(a, c) {
      LexLeTransitive(a, b, c);
    }
  }
}

=== FILE: tickets_api.dfy ===
/** The tickets handler: GET (one by id, or a filtered list, newest first),
    POST (create a listing with defaults), and PUT/DELETE guarded by an
    existence check and a seller-ownership check. */
module TicketsApi {
  import opened Common
  import opened Sorting
  import ConcertsApi

  /** A row of the ticket table. The grade and status columns are free text:
      the handler writes whatever the request carries. */
  datatype Ticket = Ticket(
    id: int, concertId: int, sellerId: int, title: string, price: int, originalPrice: int,
    quantity: int, grade: string, section: Option<string>, row: Option<string>,
    seatNumber: Option<string>, isConsecutiveSeats: bool, description: Option<string>,
    status: string, createdAt: int)

  /** Query-string parameters of GET; `None` for an absent parameter, and a numeric
      one already read as a number. */
  datatype Query = Query(
    id: Option<int>, concertId: Option<int>, sellerId: Option<int>,
    status: Option<string>, grade: Option<string>, text: Option<string>)

  /** A POST body: every field optional. */
  datatype TicketDraft = TicketDraft(
    concertId: Option<int>, sellerId: Option<int>, title: Option<string>, price: Option<int>,
    originalPrice: Option<int>, quantity: Option<int>, grade: Option<string>,
    section: Option<string>, row: Option<string>, seatNumber: Option<string>,
    isConsecutiveSeats: Option<bool>, description: Option<string>, status: Option<string>)

  /** A PUT body: `id` selects the row, `sellerId` is checked against the owner,
      and every present field except `id` is written. The four nullable text
      columns tell an absent field (`None`) from an explicit JSON `null`
      (`Some(None)`), which the spread writes into the column. */
  datatype TicketPatch = TicketPatch(
    id: Option<int>, concertId: Option<int>, sellerId: Option<int>, title: Option<string>,
    price: Option<int>, originalPrice: Option<int>, quantity: Option<int>, grade: Option<string>,
    section: Option<Option<string>>, row: Option<Option<string>>, seatNumber: Option<Option<string>>,
    isConsecutiveSeats: Option<bool>, description: Option<Option<string>>, status: Option<string>)

  datatype Body = One(ticket: Ticket) | Many(tickets: seq<Ticket>) | Done | Failure(message: string)

  /** Status code, JSON body and the ticket table after the request. */
  datatype Response = Response(status: int, body: Body, store: seq<Ticket>)

  const NotFoundMessage: string := "티켓을 찾을 수 없습니다"
  const MissingFieldsMessage: string := "필수 정보가 누락되었습니다"
  const ConcertNotFoundMessage: string := "해당 공연을 찾을 수 없습니다"
  const MissingIdMessage: string := "티켓 ID가 필요합니다"
  const NotOwnerUpdateMessage: string := "본인의 티켓만 수정할 수 있습니다"
  const NotOwnerDeleteMessage: string := "본인의 티켓만 삭제할 수 있습니다"

  const DefaultStatus: string := "available"

  function FindById(store: seq<Ticket>, id: int): (r: Option<Ticket>)
    ensures r.Some? <==> exists i :: 0 <= i < |store| && store[i].id == id
    ensures r.Some? ==> r.value in store && r.value.id == id
  {
    FindFirst(store, (t: Ticket) => t.id == id)
  }

  /** The list filters, all of them together: equal concert, seller, status and
      grade, and the search text in the title or the description, ignoring case. */
  predicate Selected(t: Ticket, q: Query) {
    && (q.concertId.Some? ==> t.concertId == q.concertId.value)
    && (q.sellerId.Some? ==> t.sellerId == q.sellerId.value)
    && (Truthy(q.status) ==> t.status == q.status.value)
    && (Truthy(q.grade) ==> t.grade == q.grade.value)
    && (Truthy(q.text) ==>
         || ContainsIgnoringCase(t.title, q.text.value)
         || (t.description.Some? && ContainsIgnoringCase(t.description.value, q.text.value)))
  }

  /** `orderBy: { createdAt: 'desc' }`. */
  function NewestFirst(): (le: (Ticket, Ticket) -> bool)
    ensures TotalPreorder(le)
  {
    (a: Ticket, b: Ticket) => a.createdAt >= b.createdAt
  }

  /** GET: one ticket when an id is given (404 if there is none), otherwise the
      tickets passing every filter, newest first. */
  function Get(store: seq<Ticket>, q: Query): (r: Response)
    ensures r.store == store
    ensures q.id.Some? ==>
      && (r.status == 404 <==> FindById(store, q.id.value).None?)
      && (r.status == 404 ==> r.body == Failure(NotFoundMessage))
      && (r.status != 404 ==> r.status == 200 && r.body == One(FindById(store, q.id.value).value))
    ensures q.id.None? ==>
      && r.status == 200 && r.body.Many?
      && var rows := r.body.tickets;
      && (forall i :: 0 <= i < |rows| ==> rows[i] in store && Selected(rows[i], q))
      && (forall t :: t in store && Selected(t, q) ==> t in rows)
      && multiset(rows) == multiset(Filter(store, (t: Ticket) => Selected(t, q)))
      && (forall i, j :: 0 <= i < j < |rows| ==> rows[i].createdAt >= rows[j].createdAt)
  {
    if q.id.Some? then
      match FindById(store, q.id.value)
      case None => Response(404, Failure(NotFoundMessage), store)
      case Some(t) => Response(200, One(t), store)
    else
      var hits := Filter(store, (t: Ticket) => Selected(t, q));
      var rows := Sort(hits, NewestFirst());
      FilterMembers(store, (t: Ticket) => Selected(t, q));
      SortMembers(hits, NewestFirst());
      Response(200, Many(rows), store)
  }

  /** The fields a POST cannot do without; `!x` treats 0 and "" as missing. */
  predicate HasRequired(d: TicketDraft) {
    && TruthyNumber(d.concertId) && TruthyNumber(d.sellerId) && Truthy(d.title)
    && TruthyNumber(d.price) && TruthyNumber(d.quantity) && Truthy(d.grade)
  }

  /** `x || null` for an optional text column. */
  function OrNull(o: Option<string>): (r: Option<string>)
    ensures r.None? <==> !Truthy(o)
    ensures r.Some? ==> r == o && r.value != ""
  {
    if Truthy(o) then o else None
  }

  /** The row a valid POST creates. `originalPrice` falls back to `price` only when
      absent: `data.originalPrice?.toString()` turns 0 into the truthy "0". */
  function NewTicket(d: TicketDraft, id: int, createdAt: int): Ticket
    requires HasRequired(d)
  {
    Ticket(
      id, d.concertId.value, d.sellerId.value, d.title.value, d.price.value,
      if d.originalPrice.Some? then d.originalPrice.value else d.price.value,
      d.quantity.value, d.grade.value, OrNull(d.section), OrNull(d.row), OrNull(d.seatNumber),
      d.isConsecutiveSeats == Some(true), OrNull(d.description), OrDefault(d.status, DefaultStatus),
      createdAt)
  }

  /** POST: 400 when a required field is missing, 404 when the concert does not
      exist, otherwise 201 with one row appended under the id the table assigns. */
  function Post(store: seq<Ticket>, concerts: seq<ConcertsApi.Concert>, d: TicketDraft, newId: int, now: int): (r: Response)
    ensures !HasRequired(d) ==> r == Response(400, Failure(MissingFieldsMessage), store)
    ensures HasRequired(d) && ConcertsApi.FindById(concerts, d.concertId.value).None? ==>
      r == Response(404, Failure(ConcertNotFoundMessage), store)
    ensures r.status == 201 <==> HasRequired(d) && ConcertsApi.FindById(concerts, d.concertId.value).Some?
    ensures r.status == 201 ==>
      && r.body.One?
      && r.store == store + [r.body.ticket]
      && var t := r.body.ticket;
      && t.id == newId && t.concertId == d.concertId.value && t.sellerId == d.sellerId.value
      && t.title == d.title.value && t.price == d.price.value && t.quantity == d.quantity.value
      && t.grade == d.grade.value
      && t.originalPrice == (if d.originalPrice.Some? then d.originalPrice.value else d.price.value)
      && t.status == OrDefault(d.status, DefaultStatus)
      && t.isConsecutiveSeats == (d.isConsecutiveSeats == Some(true))
      && t.section == OrNull(d.section) && t.row == OrNull(d.row)
      && t.seatNumber == OrNull(d.seatNumber) && t.description == OrNull(d.description)
      && t.createdAt == now
  {
    if !HasRequired(d) then Response(400, Failure(MissingFieldsMessage), store)
    else if ConcertsApi.FindById(concerts, d.concertId.value).None? then
      Response(404, Failure(ConcertNotFoundMessage), store)
    else
      var t := NewTicket(d, newId, now);
      Response(201, One(t), store + [t])
  }

  /** `{ ...existing, ...updateData }`: every present field but `id` is written. */
  function Apply(t: Ticket, p: TicketPatch): Ticket {
    Ticket(
      t.id,
      if p.concertId.Some? then p.concertId.value else t.concertId,
      if p.sellerId.Some? then p.sellerId.value else t.sellerId,
      if p.title.Some? then p.title.value else t.title,
      if p.price.Some? then p.price.value else t.price,
      if p.originalPrice.Some? then p.originalPrice.value else t.originalPrice,
      if p.quantity.Some? then p.quantity.value else t.quantity,
      if p.grade.Some? then p.grade.value else t.grade,
      if p.section.Some? then p.section.value else t.section,
      if p.row.Some? then p.row.value else t.row,
      if p.seatNumber.Some? then p.seatNumber.value else t.seatNumber,
      if p.isConsecutiveSeats.Some? then p.isConsecutiveSeats.value else t.isConsecutiveSeats,
      if p.description.Some? then p.description.value else t.description,
      if p.status.Some? then p.status.value else t.status,
      t.createdAt)
  }

  /** The ownership check: a truthy `sellerId` must equal the stored one; an
      absent (or zero) `sellerId` skips the check. */
  predicate OwnerMismatch(stored: Ticket, sellerId: Option<int>) {
    TruthyNumber(sellerId) && stored.sellerId != sellerId.value
  }

  /** PUT: 400 without an id, 404 for an unknown id, 403 for another seller's
      ticket; otherwise the row with that id is rewritten. */
  function Put(store: seq<Ticket>, p: TicketPatch): (r: Response)
    ensures !TruthyNumber(p.id) ==> r == Response(400, Failure(MissingIdMessage), store)
    ensures TruthyNumber(p.id) && FindById(store, p.id.value).None? ==> r == Response(404, Failure(NotFoundMessage), store)
    ensures TruthyNumber(p.id) && FindById(store, p.id.value).Some? ==>
      var id := p.id.value;
      var prior := FindById(store, id).value;
      && (OwnerMismatch(prior, p.sellerId) ==> r == Response(403, Failure(NotOwnerUpdateMessage), store))
      && (!OwnerMismatch(prior, p.sellerId) ==>
          && r.status == 200 && r.body == One(Apply(prior, p))
          && r.body.ticket.id == id
          && |r.store| == |store|
          && (forall i :: 0 <= i < |store| && store[i].id != id ==> r.store[i] == store[i])
          && (forall i :: 0 <= i < |store| && store[i].id == id ==> r.store[i] == Apply(store[i], p)))
  {
    if !TruthyNumber(p.id) then Response(400, Failure(MissingIdMessage), store)
    else
      var id := p.id.value;
      match FindById(store, id)
      case None => Response(404, Failure(NotFoundMessage), store)
      case Some(prior) =>
        if OwnerMismatch(prior, p.sellerId) then Response(403, Failure(NotOwnerUpdateMessage), store)
        else
          var rows := ReplaceWhere(store, (t: Ticket) => t.id == id, (t: Ticket) => Apply(t, p));
          Response(200, One(Apply(prior, p)), rows)
  }

  function Key(t: Ticket): int {
    t.id
  }

  /** DELETE: 400 without an id, 404 for an unknown id, 403 for another seller's
      ticket; otherwise the row with that id is removed. */
  function Delete(store: seq<Ticket>, id: Option<int>, sellerId: Option<int>): (r: Response)
    ensures !TruthyNumber(id) ==> r == Response(400, Failure(MissingIdMessage), store)
    ensures TruthyNumber(id) && FindById(store, id.value).None? ==> r == Response(404, Failure(NotFoundMessage), store)
    ensures TruthyNumber(id) && FindById(store, id.value).Some? ==>
      var prior := FindById(store, id.value).value;
      && (OwnerMismatch(prior, sellerId) ==> r == Response(403, Failure(NotOwnerDeleteMessage), store))
      && (!OwnerMismatch(prior, sellerId) ==>
          && r.status == 200 && r.body == Done
          && (forall t :: t in r.store <==> t in store && t.id != id.value)
          && IsSubsequence(r.store, store))
  {
    if !TruthyNumber(id) then Response(400, Failure(MissingIdMessage), store)
    else
      match FindById(store, id.value)
      case None => Response(404, Failure(NotFoundMessage), store)
      case Some(prior) =>
        if OwnerMismatch(prior, sellerId) then Response(403, Failure(NotOwnerDeleteMessage), store)
        else Response(200, Done, WithoutKey(store, Key, id.value))
  }

  /** A list query that no ticket satisfies is answered 200 with an empty list, not an error. */
  lemma NoMatchEmptyList(store: seq<Ticket>, q: Query)
    requires q.id.None?
    requires forall i :: 0 <= i < |store| ==> !Selected(store[i], q)
    ensures Get(store, q) == Response(200, Many([]), store)
  {
  }

  /** A request from another seller changes nothing, whether PUT or DELETE. */
  lemma ForeignSellerChangesNothing(store: seq<Ticket>, p: TicketPatch)
    requires TruthyNumber(p.id) && TruthyNumber(p.sellerId)
    requires forall i :: 0 <= i < |store| && store[i].id == p.id.value ==> store[i].sellerId != p.sellerId.value
    requires exists i :: 0 <= i < |store| && store[i].id == p.id.value
    ensures Put(store, p).status == 403 && Put(store, p).store == store
    ensures Delete(store, p.id, p.sellerId).status == 403 && Delete(store, p.id, p.sellerId).store == store
  {
    var prior := FindById(store, p.id.value).value;
    assert prior in store;
  }

  /** An accepted PUT empties a nullable column sent as `null` and keeps one left
      out, on every row with that id. */
  lemma PutNullClearsColumn(store: seq<Ticket>, p: TicketPatch)
    requires TruthyNumber(p.id) && FindById(store, p.id.value).Some?
    requires !OwnerMismatch(FindById(store, p.id.value).value, p.sellerId)
    ensures var r := Put(store, p);
      && r.status == 200
      && forall i :: 0 <= i < |store| && store[i].id == p.id.value ==>
        && (p.section == Some(None) ==> r.store[i].section.None?)
        && (p.row == Some(None) ==> r.store[i].row.None?)
        && (p.seatNumber == Some(None) ==> r.store[i].seatNumber.None?)
        && (p.description == Some(None) ==> r.store[i].description.None?)
        && (p.section.None? ==> r.store[i].section == store[i].section)
        && (p.row.None? ==> r.store[i].row == store[i].row)
        && (p.seatNumber.None? ==> r.store[i].seatNumber == store[i].seatNumber)
        && (p.description.None? ==> r.store[i].description == store[i].description)
  {
  }

  /** With unique ids, a successful DELETE removes exactly one row and keeps ids unique. */
  lemma DeleteRemovesOne(store: seq<Ticket>, id: int, sellerId: Option<int>)
    requires UniqueKeys(store, Key)
    requires id != 0 && FindById(store, id).Some?
    requires !OwnerMismatch(FindById(store, id).value, sellerId)
    ensures |Delete(store, Some(id), sellerId).store| == |store| - 1
    ensures UniqueKeys(Delete(store, Some(id), sellerId).store, Key)
  {
    FilterOutPresentKey(store, Key, id);
    FilterKeepsUniqueKeys(store, Key, id);
  }
}

=== FILE: tickets_page.dfy ===
/** The ticket list page: the grade check boxes, the min/max price filter applied
    to the fetched tickets, the request URL, and the filter reset. */
module TicketsPage {
  import opened Common
  import opened Decimal
  import TicketsApi

  /** `TicketGrade`. */
  datatype Grade = VIP | R | S | A | B

  function GradeName(g: Grade): (name: string)
    ensures |name| > 0 && ',' !in name
  {
    match g
    case VIP => "VIP"
    case R => "R"
    case S => "S"
    case A => "A"
    case B => "B"
  }

  /** The filter panel: checked grades in click order, the two price boxes as typed,
      and a status that the page keeps but never sends. */
  datatype Filters = Filters(grades: seq<Grade>, minPrice: string, maxPrice: string, status: string)

  const BaseUrl: string := "/api/tickets?status=available"

  /** The filters the page starts with and the reset button restores. */
  function Reset(): (f: Filters)
    ensures f.grades == [] && f.minPrice == "" && f.maxPrice == "" && f.status == "available"
  {
    Filters([], "", "", "available")
  }

  function Other(g: Grade): Grade -> bool {
    h => h != g
  }

  /** `handleGradeChange`: checking appends the grade (a second check adds it again);
      unchecking drops every copy of it and keeps the rest in order. */
  function HandleGradeChange(f: Filters, g: Grade, checked: bool): (r: Filters)
    ensures r.minPrice == f.minPrice && r.maxPrice == f.maxPrice && r.status == f.status
    ensures checked ==> r.grades == f.grades + [g]
    ensures !checked ==>
      && g !in r.grades
      && IsSubsequence(r.grades, f.grades)
      && forall h :: h != g ==> multiset(r.grades)[h] == multiset(f.grades)[h]
  {
    if checked then f.(grades := f.grades + [g])
    else
      f.(grades := Filter(f.grades, Other(g)))
  }

  /** Unchecking a grade just checked restores the filters, when it was not checked before. */
  lemma {:induction false} UncheckUndoesCheck(f: Filters, g: Grade)
    requires g !in f.grades
    ensures HandleGradeChange(HandleGradeChange(f, g, true), g, false) == f
  {
    FilterDropsAppended(f.grades, g, Other(g));
  }

  /** Text that `Number` reads as an integer: an optional '-' and at least one digit. */
  predicate IsIntegerText(s: string) {
    (|s| > 0 && AllDigits(s)) || (|s| > 1 && s[0] == '-' && AllDigits(s[1..]))
  }

  /** `Number(s)` for integer text; `None` stands for NaN. */
  function NumberOf(s: string): (r: Option<int>)
    ensures r.Some? <==> IsIntegerText(s)
  {
    if IsIntegerText(s) then Some(ParseInt(s)) else None
  }

  /** `filters.minPrice && Number(price) < Number(filters.minPrice)`; a NaN bound compares false. */
  predicate BelowMin(price: int, min: string) {
    min != "" && NumberOf(min).Some? && price < NumberOf(min).value
  }

  predicate AboveMax(price: int, max: string) {
    max != "" && NumberOf(max).Some? && price > NumberOf(max).value
  }

  predicate PassesPrice(price: int, f: Filters) {
    !BelowMin(price, f.minPrice) && !AboveMax(price, f.maxPrice)
  }

  /** `filteredTickets`: the fetched tickets whose price lies within the typed bounds. */
  function FilterTickets(tickets: seq<TicketsApi.Ticket>, f: Filters): (r: seq<TicketsApi.Ticket>)
    ensures forall t :: t in r <==> t in tickets && PassesPrice(t.price, f)
    ensures forall t :: multiset(r)[t] == if PassesPrice(t.price, f) then multiset(tickets)[t] else 0
    ensures IsSubsequence(r, tickets)
  {
    var keep := (t: TicketsApi.Ticket) => PassesPrice(t.price, f);
    FilterMembers(tickets, keep);
    Filter(tickets, keep)
  }

  /** With integer bounds typed in, both ends of the range are inclusive. */
  lemma PriceRangeInclusive(price: int, lo: int, hi: int, f: Filters)
    requires f.minPrice == IntToString(lo) && f.maxPrice == IntToString(hi)
    ensures PassesPrice(price, f) <==> lo <= price <= hi
  {
    IntToStringRoundTrip(lo);
    IntToStringRoundTrip(hi);
  }

  /** With both boxes empty, every fetched ticket is shown. */
  lemma EmptyBoundsKeepAll(tickets: seq<TicketsApi.Ticket>, f: Filters)
    requires f.minPrice == "" && f.maxPrice == ""
    ensures FilterTickets(tickets, f) == tickets
  {
    FilterKeepsAll(tickets, (t: TicketsApi.Ticket) => PassesPrice(t.price, f));
  }

  /** A bound that is not a number filters nothing out. */
  lemma UnreadableBoundIgnored(price: int, f: Filters)
    requires !IsIntegerText(f.minPrice) && !IsIntegerText(f.maxPrice)
    ensures PassesPrice(price, f)
  {
  }

  /** `filters.grade.join(",")`. */
  function Join(parts: seq<string>): (r: string)
    ensures |parts| == 1 ==> r == parts[0]
    ensures |parts| >= 2 ==> ',' in r
  {
    if |parts| == 0 then ""
    else if |parts| == 1 then parts[0]
    else
      var r := parts[0] + "," + Join(parts[1..]);
      assert r[|parts[0]|] == ',';
      r
  }

  function GradeNames(grades: seq<Grade>): seq<string> {
    MapSeq(grades, GradeName)
  }

  /** The value of the `grade` parameter, when the URL carries one. */
  function GradeParam(grades: seq<Grade>): (p: Option<string>)
    ensures p.Some? <==> |grades| > 0
  {
    if |grades| > 0 then Some(Join(GradeNames(grades))) else None
  }

  /** The URL `fetchTickets` requests: the fixed status first, then the search term
      (through `encode`, standing for `encodeURIComponent`) when there is one, then
      the checked grades when there are any. The status and price filters are not sent. */
  function RequestUrl(term: string, f: Filters, encode: string -> string): (url: string)
    ensures |url| >= |BaseUrl| && url[..|BaseUrl|] == BaseUrl
    ensures term == "" && f.grades == [] ==> url == BaseUrl
    ensures term != "" ==>
      var query := "&query=" + encode(term);
      |url| >= |BaseUrl| + |query| && url[|BaseUrl|..|BaseUrl| + |query|] == query
    ensures |f.grades| > 0 ==>
      var grade := "&grade=" + GradeParam(f.grades).value;
      |url| >= |grade| && url[|url| - |grade|..] == grade
    ensures |url| == |BaseUrl|
      + (if term != "" then |"&query=" + encode(term)| else 0)
      + (if |f.grades| > 0 then |"&grade=" + GradeParam(f.grades).value| else 0)
    ensures term == "" && |f.grades| > 0 ==> url == BaseUrl + "&grade=" + GradeParam(f.grades).value
    ensures term != "" && f.grades == [] ==> url == BaseUrl + "&query=" + encode(term)
  {
    var withQuery := if term != "" then BaseUrl + ("&query=" + encode(term)) else BaseUrl;
    if |f.grades| > 0 then withQuery + ("&grade=" + GradeParam(f.grades).value) else withQuery
  }

  /** The URL loses no search term: with the same grades checked, and an encoding that
      keeps different terms apart, different terms give different URLs. */
  lemma RequestUrlKeepsTerm(t1: string, t2: string, f: Filters, encode: string -> string)
    requires encode(t1) == encode(t2) ==> t1 == t2
    requires RequestUrl(t1, f, encode) == RequestUrl(t2, f, encode)
    ensures t1 == t2
  {
    var url := RequestUrl(t1, f, encode);
    if t1 != "" && t2 != "" {
      var q1 := "&query=" + encode(t1);
      var q2 := "&query=" + encode(t2);
      assert |q1| == |q2|;
      assert q1 == url[|BaseUrl|..|BaseUrl| + |q1|] == q2;
      assert encode(t1) == q1[7..] && encode(t2) == q2[7..];
    }
  }

  /** The parameters the tickets handler reads from that URL. */
  function SentQuery(term: string, f: Filters): (q: TicketsApi.Query)
    ensures q.status == Some("available") && q.grade == GradeParam(f.grades)
    ensures q.id.None? && q.concertId.None? && q.sellerId.None?
  {
    TicketsApi.Query(None, None, None, Some("available"), GradeParam(f.grades), if term != "" then Some(term) else None)
  }

  /** The grade names are pairwise different. */
  lemma GradeNameInjective(g: Grade, h: Grade)
    requires GradeName(g) == GradeName(h)
    ensures g == h
  {
  }

  /** The handler compares the grade parameter with the ticket's grade for equality, so
      the page's comma-joined list filters as intended for one checked grade, and for
      two or more it matches no ticket at all. */
  lemma GradeFilterAsSent(term: string, f: Filters, t: TicketsApi.Ticket, h: Grade)
    requires t.grade == GradeName(h)
    ensures TicketsApi.Selected(t, SentQuery(term, f)) <==>
      TicketsApi.Selected(t, SentQuery(term, f).(grade := None))
      && (|f.grades| == 0 || (|f.grades| == 1 && f.grades[0] == h))
  {
    var gs := f.grades;
    if |gs| == 1 {
      assert GradeNames(gs) == [GradeName(gs[0])];
      if GradeName(gs[0]) == GradeName(h) {
        GradeNameInjective(gs[0], h);
      }
    } else if |gs| >= 2 {
      assert ',' in GradeParam(gs).value;
      assert GradeParam(gs).value != GradeName(h);
    }
  }

  /** After a reset every fetched ticket is shown and the URL carries no grade. */
  lemma ResetShowsAll(tickets: seq<TicketsApi.Ticket>, term: string, encode: string -> string)
    ensures FilterTickets(tickets, Reset()) == tickets
    ensures RequestUrl(term, Reset(), encode) == if term == "" then BaseUrl else BaseUrl + ("&query=" + encode(term))
  {
    EmptyBoundsKeepAll(tickets, Reset());
  }
}

=== FILE: users_api.dfy ===
/** The users handler: GET (an exists-check by e-mail, or the list without
    passwords), POST (registration: required fields, e-mail pattern, duplicate
    e-mail), PUT (profile update that never touches the password) and DELETE. */
module UsersApi {
  import opened Common
  import EmailPattern

  /** A row of the user table. The password is kept as the plain text the client sent. */
  datatype User = User(id: int, email: string, password: string, username: string)

  /** A user as the handlers send it out: everything but the password. */
  datatype PublicUser = PublicUser(id: int, email: string, username: string)

  /** A POST or PUT body; `id` is read only by PUT, `password` only by POST. */
  datatype UserRequest = UserRequest(
    id: Option<int>, email: Option<string>, password: Option<string>, username: Option<string>)

  datatype Body =
    | Exists(user: PublicUser)
    | Absent
    | Listing(users: seq<PublicUser>)
    | One(user: PublicUser)
    | Done
    | Failure(message: string)

  /** Status code, JSON body and the user table after the request. */
  datatype Response = Response(status: int, body: Body, store: seq<User>)

  const MissingFieldsMessage: string := "이메일, 비밀번호, 사용자 이름은 필수 입력 항목입니다."
  const BadEmailMessage: string := "유효한 이메일 주소를 입력해주세요."
  const DuplicateEmailMessage: string := "이미 사용 중인 이메일 주소입니다."
  const MissingIdMessage: string := "사용자 ID가 필요합니다."
  const NotFoundMessage: string := "사용자를 찾을 수 없습니다."

  /** `const { password, ...rest } = user`. */
  function Public(u: User): (v: PublicUser)
    ensures v.id == u.id && v.email == u.email && v.username == u.username
  {
    PublicUser(u.id, u.email, u.username)
  }

  /** Lookup by the unique e-mail column; the comparison is exact, case included. */
  function FindByEmail(store: seq<User>, email: string): (r: Option<User>)
    ensures r.Some? <==> exists i :: 0 <= i < |store| && store[i].email == email
    ensures r.Some? ==> r.value in store && r.value.email == email
  {
    FindFirst(store, (u: User) => u.email == email)
  }

  function FindById(store: seq<User>, id: int): (r: Option<User>)
    ensures r.Some? <==> exists i :: 0 <= i < |store| && store[i].id == id
    ensures r.Some? ==> r.value in store && r.value.id == id
  {
    FindFirst(store, (u: User) => u.id == id)
  }

  /** GET: with a (non-empty) e-mail, whether a user holds exactly that e-mail and,
      if so, that user without password; without one, every user without password. */
  function Get(store: seq<User>, email: Option<string>): (r: Response)
    ensures r.store == store && r.status == 200
    ensures Truthy(email) ==>
      && (r.body.Exists? <==> exists i :: 0 <= i < |store| && store[i].email == email.value)
      && (r.body.Exists? ==> r.body.user.email == email.value && r.body.user == Public(FindByEmail(store, email.value).value))
      && (!r.body.Exists? ==> r.body == Absent)
    ensures !Truthy(email) ==>
      && r.body.Listing?
      && |r.body.users| == |store|
      && forall i :: 0 <= i < |store| ==> r.body.users[i] == Public(store[i])
  {
    if Truthy(email) then
      match FindByEmail(store, email.value)
      case Some(u) => Response(200, Exists(Public(u)), store)
      case None => Response(200, Absent, store)
    else
      Response(200, Listing(MapSeq(store, Public)), store)
  }

  predicate HasRequired(q: UserRequest) {
    Truthy(q.email) && Truthy(q.password) && Truthy(q.username)
  }

  /** POST: 400 for a missing field (checked first), 400 for an e-mail outside the
      pattern, 409 for an e-mail already held; otherwise 201 and one new row. */
  function Post(store: seq<User>, q: UserRequest, newId: int): (r: Response)
    ensures !HasRequired(q) ==> r == Response(400, Failure(MissingFieldsMessage), store)
    ensures HasRequired(q) && !EmailPattern.Matches(q.email.value) ==> r == Response(400, Failure(BadEmailMessage), store)
    ensures HasRequired(q) && EmailPattern.Matches(q.email.value) && FindByEmail(store, q.email.value).Some? ==>
      r == Response(409, Failure(DuplicateEmailMessage), store)
    ensures r.status == 201 <==>
      HasRequired(q) && EmailPattern.Matches(q.email.value) && (forall i :: 0 <= i < |store| ==> store[i].email != q.email.value)
    ensures r.status == 201 ==>
      && r.store == store + [User(newId, q.email.value, q.password.value, q.username.value)]
      && r.body == One(PublicUser(newId, q.email.value, q.username.value))
  {
    if !HasRequired(q) then Response(400, Failure(MissingFieldsMessage), store)
    else if !EmailPattern.Matches(q.email.value) then Response(400, Failure(BadEmailMessage), store)
    else if FindByEmail(store, q.email.value).Some? then Response(409, Failure(DuplicateEmailMessage), store)
    else
      var u := User(newId, q.email.value, q.password.value, q.username.value);
      Response(201, One(Public(u)), store + [u])
  }

  /** `{ id, password, ...updateData }` written over the row: the e-mail and the
      user name when present, never the id or the password. */
  function Apply(u: User, q: UserRequest): User {
    User(
      u.id,
      if q.email.Some? then q.email.value else u.email,
      u.password,
      if q.username.Some? then q.username.value else u.username)
  }

  /** The duplicate check of PUT: only a truthy e-mail different from the current one is looked up. */
  predicate EmailTaken(store: seq<User>, current: User, email: Option<string>) {
    Truthy(email) && email.value != current.email && FindByEmail(store, email.value).Some?
  }

  /** PUT: 400 without an id, 404 for an unknown id, 409 when the new e-mail is
      held by someone; otherwise the row is updated and sent back without password. */
  function Put(store: seq<User>, q: UserRequest): (r: Response)
    ensures !TruthyNumber(q.id) ==> r == Response(400, Failure(MissingIdMessage), store)
    ensures TruthyNumber(q.id) && FindById(store, q.id.value).None? ==> r == Response(404, Failure(NotFoundMessage), store)
    ensures TruthyNumber(q.id) && FindById(store, q.id.value).Some? ==>
      var id := q.id.value;
      var prior := FindById(store, id).value;
      && (EmailTaken(store, prior, q.email) ==> r == Response(409, Failure(DuplicateEmailMessage), store))
      && (!EmailTaken(store, prior, q.email) ==>
          && r.status == 200 && r.body == One(Public(Apply(prior, q)))
          && |r.store| == |store|
          && (forall i :: 0 <= i < |store| ==> r.store[i].id == store[i].id && r.store[i].password == store[i].password)
          && (forall i :: 0 <= i < |store| && store[i].id != id ==> r.store[i] == store[i])
          && (forall i :: 0 <= i < |store| && store[i].id == id ==> r.store[i] == Apply(store[i], q)))
  {
    if !TruthyNumber(q.id) then Response(400, Failure(MissingIdMessage), store)
    else
      var id := q.id.value;
      match FindById(store, id)
      case None => Response(404, Failure(NotFoundMessage), store)
      case Some(prior) =>
        if EmailTaken(store, prior, q.email) then Response(409, Failure(DuplicateEmailMessage), store)
        else
          var rows := ReplaceWhere(store, (u: User) => u.id == id, (u: User) => Apply(u, q));
          Response(200, One(Public(Apply(prior, q))), rows)
  }

  function Key(u: User): int {
    u.id
  }

  /** DELETE: 400 without an id, 404 for an unknown id; otherwise that user's row is removed. */
  function Delete(store: seq<User>, id: Option<int>): (r: Response)
    ensures !TruthyNumber(id) ==> r == Response(400, Failure(MissingIdMessage), store)
    ensures TruthyNumber(id) && FindById(store, id.value).None? ==> r == Response(404, Failure(NotFoundMessage), store)
    ensures TruthyNumber(id) && FindById(store, id.value).Some? ==>
      && r.status == 200 && r.body == Done
      && (forall u :: u in r.store <==> u in store && u.id != id.value)
      && IsSubsequence(r.store, store)
  {
    if !TruthyNumber(id) then Response(400, Failure(MissingIdMessage), store)
    else if FindById(store, id.value).None? then Response(404, Failure(NotFoundMessage), store)
    else Response(200, Done, WithoutKey(store, Key, id.value))
  }

  /** The e-mail column's unique constraint. */
  predicate UniqueEmails(store: seq<User>) {
    forall i, j :: 0 <= i < j < |store| ==> store[i].email != store[j].email
  }

  /** Registration keeps e-mails unique: the 409 check turns away every e-mail already held. */
  lemma PostKeepsEmailsUnique(store: seq<User>, q: UserRequest, newId: int)
    requires UniqueEmails(store)
    ensures UniqueEmails(Post(store, q, newId).store)
  {
  }

  /** A profile update keeps e-mails unique as long as it does not set the e-mail to
      "": a falsy e-mail skips the duplicate check but is still written. */
  lemma {:induction false} PutKeepsEmailsUnique(store: seq<User>, q: UserRequest)
    requires UniqueEmails(store) && UniqueKeys(store, Key)
    requires q.email != Some("")
    ensures UniqueEmails(Put(store, q).store)
  {
    var r := Put(store, q);
    if r.status == 200 {
      var id := q.id.value;
      var prior := FindById(store, id).value;
      var k :| 0 <= k < |store| && store[k] == prior;
      forall i, j | 0 <= i < j < |store| ensures r.store[i].email != r.store[j].email {
        if store[i].id == id {
          assert i == k;
          assert store[j].id != id;
          if q.email.Some? && q.email.value != prior.email {
            assert store[j].email != q.email.value;
          }
        } else if store[j].id == id {
          assert j == k;
          if q.email.Some? && q.email.value != prior.email {
            assert store[i].email != q.email.value;
          }
        }
      }
    }
  }

  /** The quirk behind the precondition above: the handler's own duplicate check skips
      a falsy e-mail, so it lets an update to "" through even when another user holds "".
      Only the database's unique constraint on the column, which this model leaves out,
      would then refuse the write. */
  lemma EmptyEmailCanBeShared(a: User, b: User)
    requires a.id == 1 && b.id == 2 && a.email == "" && b.email == "x@y.z"
    ensures var r := Put([a, b], UserRequest(Some(2), Some(""), None, None));
      r.status == 200 && r.store[0].email == r.store[1].email == ""
  {
    var store := [a, b];
    assert store[1].id == 2;
    var found := FindById(store, 2);
    assert found.value in store && found.value.id == 2;
  }
}
